=== FILE: README.md ===
# glTF to SceneKit conversion core, modelled in Dafny

This project models the decision logic of the glTFSceneKit converter
(`GLTF+SceneKit.swift`). That logic turns a decoded glTF 2.0 document into
the arguments of SceneKit's geometry constructors and into a node tree.
The model covers:

- **Accessor resolution** (`loadAcessor`, `requestData`). This decides the
  byte slice handed to SceneKit, its stride, and the offset of the first
  element inside it. Tightly packed and interleaved buffer views take
  different branches (module `ByteLayout`).
- **Per-accessor constants.** These are `components()` and
  `bytesPerElement()` (module `Gltf`, which also holds the document
  records).
- **Primitive topology.** `scn()` maps glTF modes to SceneKit primitive
  types. `geometryElement` then derives a primitive count from an index
  count (module `Topology`).
- **Attribute semantics** (`sourceSemantic`). This includes how indexed
  names such as `TEXCOORD_7` fall back to the vertex semantic (modules
  `Decimal` and `Semantics`).
- **Extension validation** at the start of `convert` (module `Extensions`).
- **Buffer preloading.** `_preloadBuffersData` collects the buffers one
  node needs (module `Preload`).
- **Geometry assembly.** `geometryElement`, `geometrySources` and
  `geometryNode` build the primitive child nodes. They append the Draco
  codec's output and attach morph targets (module `Geometry`).
- **Cancellation.** This is modelled as the index of the first read of
  `isCanceled` that sees `true` (module `Cancellation`).
- **Weight animation key paths.** These are the
  `childNodes[i].morpher.weights[j]` strings (module `WeightPaths`).
- **The recursive `buildNode`.** This covers the node cache and which
  entries a cancellation leaves out of it (module `NodeBuilder`). The
  build state carries a log of the cache writes made, as a record for the
  contracts rather than a variable of the source. A reference schedule
  (`NodeWrites`, `ForestWrites`) lists the writes of an uninterrupted
  build, each with the number of the flag read just before it. A build
  makes exactly the writes of that schedule whose read comes before the
  first read that sees the flag, at every depth of the tree.
- **Finalisation.** This is the single-threaded `convert` with
  `_loadAnimationsAndCompleteConvertion`, `_converted` and `clearCache`
  (module `Conversion`).

Each operation is paired with an independent statement of what it means:

- the element addresses of the glTF 2.0 specification (section 3.6.2.4);
- a reference table of recognised attribute names;
- a Galois-style characterisation of the primitive count;
- a reference predicate for the buffers a node needs;
- a parse function that inverts the decimal rendering of indices;
- a reference tree (`PureNode`) that an uncancelled build must equal;
- a reference schedule of cache writes that an interrupted build must
  follow up to the flag.

Some behaviour of the code is kept as written, because the code is followed
where it is more specific than its documentation:

- `textures?.count == 0` is false when the document has no texture array.
  In that case the single-threaded conversion never fires the completion
  handler (`Conversion.CompletesImmediately`).
- For an interleaved view the slice is `stride * count` bytes from the view
  start. It holds every element only when the accessor offset plus one
  element fits in one stride (`ByteLayout.CoverageIff`).
- The triangle-strip count is `count - 2`, which is negative for fewer than
  two indices (`Topology.PrimitiveCount`).
- The indexed names the switch does not list all give the vertex
  semantic. These are `TEXCOORD_5` and above, `COLOR_3` and above, and
  `JOINTS_1`/`WEIGHTS_1` and above.

## Model

| member | source | states |
|---|---|---|
| Gltf.Components | Sources/glTFSceneKit/GLTF+SceneKit.swift:534-549 | components per element are rows times columns of the accessor type (1, 2, 3, 4, 4, 9, 16), between 1 and 16 |
| Gltf.BytesPerElement | Sources/glTFSceneKit/GLTF+SceneKit.swift:551-560 | bytes per component are the component type's bit width over eight: 1 for byte types, 2 for short types, 4 otherwise |
| Gltf.ElementSize | Sources/glTFSceneKit/GLTF+SceneKit.swift:469 | the size of one element, components times bytes per component, lies between 1 and 64 |
| ByteLayout.Resolve | Sources/glTFSceneKit/GLTF+SceneKit.swift:468-485 | stride is the view stride or the element size; length is stride times count; packed views move the accessor offset into the slice start and interleaved views keep it as the element offset; either way the consumer's first byte of element i is the glTF element address view offset + accessor offset + i * stride |
| ByteLayout.LayoutCoverage | Sources/glTFSceneKit/GLTF+SceneKit.swift:473-485 | a slice of count strides holds every byte of every element exactly when the first element fits within one stride |
| ByteLayout.CoverageIff | Sources/glTFSceneKit/GLTF+SceneKit.swift:468-485 | the resolved slice holds all elements iff count is 0 or element offset + element size <= stride; packed views always qualify |
| ByteLayout.RequestData | Sources/glTFSceneKit/GLTF+SceneKit.swift:446-456 | fails with no buffer views, or with not-loaded when the view's buffer has no payload; otherwise returns that view and its buffer's payload |
| ByteLayout.LoadAccessor | Sources/glTFSceneKit/GLTF+SceneKit.swift:460-490 | absent without a buffer view or when data cannot be requested, present otherwise; the slice has stride*count bytes, each equal to the payload byte at slice start plus its position |
| ByteLayout.ReadsSpecifiedBytes | Sources/glTFSceneKit/GLTF+SceneKit.swift:466-486 | when the slice covers the elements, the byte a consumer reads at offset + i*stride + k is payload byte ElementAddress(i) + k |
| ByteLayout.PackedVec3Example | Sources/glTFSceneKit/GLTF+SceneKit.swift:468-485 | a float VEC3 accessor at offset 12 in an unstrided view resolves to start view+12, stride 12, length 36, element offset 0 |
| ByteLayout.InterleavedVec3Example | Sources/glTFSceneKit/GLTF+SceneKit.swift:468-485 | the same accessor in a view of stride 32 resolves to start at the view, stride 32, length 96, element offset 12 |
| Topology.Scn | Sources/glTFSceneKit/GLTF+SceneKit.swift:564-577 | every glTF mode keeps its dimension; only TRIANGLE_STRIP becomes a strip; every other surface mode, the fan included, becomes a triangle list |
| Topology.PrimitiveCount | Sources/glTFSceneKit/GLTF+SceneKit.swift:385-399 | for every n, n primitives fit in count indices iff n <= result; so the result is the largest primitive count that fits, non-negative except for strips |
| Topology.ElementCount | Sources/glTFSceneKit/GLTF+SceneKit.swift:385-399 | per glTF mode: line modes halve, the strip subtracts two, other surface modes divide by three, points keep the count |
| Topology.TriangleListExample | Sources/glTFSceneKit/GLTF+SceneKit.swift:389-391 | 300 indices of a triangle list give 100 triangles |
| Decimal.Show | Sources/glTFSceneKit/GLTF+SceneKit.swift:239 | the decimal rendering of an index is non-empty, all digits, one character exactly for n < 10, and starts with 0 only for 0 itself (no leading zero) |
| Decimal.ParseShow | Sources/glTFSceneKit/GLTF+SceneKit.swift:239 | parsing the rendering gives the index back |
| Decimal.ShowInjective | Sources/glTFSceneKit/GLTF+SceneKit.swift:239 | distinct indices render to distinct strings |
| Semantics.SourceSemantic | Sources/glTFSceneKit/GLTF+SceneKit.swift:494-513 | agrees with the recognised-name table on its keys and gives vertex on every other name; a non-vertex result implies a recognised name other than POSITION |
| Semantics.LongIndexNotRecognised | Sources/glTFSceneKit/GLTF+SceneKit.swift:502-511 | TEXCOORD_n, COLOR_n, JOINTS_n and WEIGHTS_n with an index of two or more digits are never recognised |
| Semantics.TexcoordSemantics | Sources/glTFSceneKit/GLTF+SceneKit.swift:504-505 | TEXCOORD_n is texcoord iff n <= 4, vertex otherwise |
| Semantics.ColorSemantics | Sources/glTFSceneKit/GLTF+SceneKit.swift:502-503 | COLOR_n is color iff n <= 2, vertex otherwise |
| Semantics.JointsSemantics | Sources/glTFSceneKit/GLTF+SceneKit.swift:506-507 | JOINTS_n is bone indices iff n == 0, vertex otherwise |
| Semantics.WeightsSemantics | Sources/glTFSceneKit/GLTF+SceneKit.swift:508-509 | WEIGHTS_n is bone weights iff n == 0, vertex otherwise |
| Extensions.Unsupported | Sources/glTFSceneKit/GLTF+SceneKit.swift:15-17 | keeps exactly the keys outside the two supported extensions, with their multiplicities |
| Extensions.FirstUnsupported | Sources/glTFSceneKit/GLTF+SceneKit.swift:73-80 | absent iff every key is supported; otherwise an unsupported position with every earlier key supported |
| Extensions.Validate | Sources/glTFSceneKit/GLTF+SceneKit.swift:65-80 | rejects iff some required extension is unsupported, naming the first such one; reports exactly the unsupported used extensions |
| Extensions.UsedNeverAborts | Sources/glTFSceneKit/GLTF+SceneKit.swift:65-71 | the used-extension list never changes whether conversion aborts |
| Extensions.UnknownRequiredExample | Sources/glTFSceneKit/GLTF+SceneKit.swift:73-80 | a required UNKNOWN_EXT is rejected by name |
| Preload.AccessorBuffer | Sources/glTFSceneKit/GLTF+SceneKit.swift:196-200 | an accessor yields a buffer iff the accessor array is present and the accessor has a buffer view |
| Preload.AddPrimitiveBuffers | Sources/glTFSceneKit/GLTF+SceneKit.swift:189-211 | the set grows by exactly the buffers the primitive uses: the Draco view's buffer alone for a Draco primitive, otherwise every attribute and index accessor buffer |
| Preload.PreloadBuffers | Sources/glTFSceneKit/GLTF+SceneKit.swift:182-215 | the collected set is exactly the buffers some primitive of the node's mesh needs |
| Geometry.GeometryElement | Sources/glTFSceneKit/GLTF+SceneKit.swift:379-412 | present iff there are indices, an accessor array and a resolvable index accessor; then carries its data, the mapped type, the largest fitting primitive count and the bytes per index |
| Geometry.GeometrySource | Sources/glTFSceneKit/GLTF+SceneKit.swift:420-439 | present iff the accessor resolves; then semantic, vector count, components, bytes per component, offset and stride are the accessor's, and components are always declared floating point |
| Geometry.GeometrySources | Sources/glTFSceneKit/GLTF+SceneKit.swift:418-443 | each source occurs exactly as many times as attributes resolve to it, so there is one source per resolvable attribute and no other |
| Geometry.Present | Sources/glTFSceneKit/GLTF+SceneKit.swift:420-441 | keeping the resolved sources of the attributes yields each source exactly as often as it resolved and never more sources than attributes |
| Geometry.PresentAppend | Sources/glTFSceneKit/GLTF+SceneKit.swift:420-441 | the sources kept from two runs of attributes are those kept from the first followed by those kept from the second, so sources come out in attribute order |
| Geometry.SourcesMembership | Sources/glTFSceneKit/GLTF+SceneKit.swift:418-443 | a source is produced iff some attribute resolves to it, and every resolvable attribute's source is produced |
| Geometry.BuildPrimitive | Sources/glTFSceneKit/GLTF+SceneKit.swift:319-373 | the index element and attribute sources come first and are all there is without Draco; with Draco exactly the codec's element and exactly its sources (none when it returns none) follow them; a targets array gives an additive morpher with one source set per target, in order; mesh name and material are carried over |
| Geometry.GeometryPrimitives | Sources/glTFSceneKit/GLTF+SceneKit.swift:319-347 | the children built are a prefix of the mesh's primitives, each fully built; every kept primitive saw no cancellation and a shorter result means the next read saw one |
| Geometry.MeshNodes | Sources/glTFSceneKit/GLTF+SceneKit.swift:316-374 | one primitive node per primitive of the node's mesh |
| Geometry.GeometryNode | Sources/glTFSceneKit/GLTF+SceneKit.swift:310-377 | one read of the flag on entry and one per assembled primitive; nothing is built when the entry read sees the flag; the children are always a prefix of the mesh's primitive nodes and the build stops exactly at the first read that sees the flag (a shorter list means the last read saw it, and the reads are one plus the kept primitives plus one for the read that cut it short); when none of its reads sees the flag it builds all of them after one read per primitive plus the entry read |
| Cancellation.UnseenIff | Sources/glTFSceneKit/GLTF+SceneKit.swift:148-152 | "none of the first n reads sees the flag" holds exactly when no read numbered below n does, for a flag that stays set once `cancel()` sets it |
| WeightPaths.ChildPaths | Sources/glTFSceneKit/GLTF+SceneKit.swift:237-241 | a child with a morpher of n targets contributes paths for targets 0 to n-1, none without a morpher |
| WeightPaths.Enumerate | Sources/glTFSceneKit/GLTF+SceneKit.swift:234-243 | a path is listed iff it names an existing target of a morphed child; the list is strictly ordered by child then target, with one entry per target |
| WeightPaths.RenderInjective | Sources/glTFSceneKit/GLTF+SceneKit.swift:239 | distinct (child, target) pairs render to distinct key paths |
| WeightPaths.AppendChildPaths | Sources/glTFSceneKit/GLTF+SceneKit.swift:238-241 | the inner loop keeps the earlier paths and appends the rendered paths of targets 0 to n-1 |
| WeightPaths.PathStrings | Sources/glTFSceneKit/GLTF+SceneKit.swift:234-243 | the key paths are the renderings of the enumeration, one per target, pairwise distinct |
| WeightPaths.CollectWeightPaths | Sources/glTFSceneKit/GLTF+SceneKit.swift:234-243 | the nested loops compute exactly the path strings |
| NodeBuilder.Shell | Sources/glTFSceneKit/GLTF+SceneKit.swift:223-244 | the node records its source index, name, camera, skin and primitive children, carries the weight paths of those children's morphers, and has no children yet |
| NodeBuilder.BuildNode | Sources/glTFSceneKit/GLTF+SceneKit.swift:222-267 | the cache keeps its length and only gains entries of the node's subtree, the node itself being cached as the returned node; the cache writes made are exactly the writes of the node's reference schedule whose flag read comes before the first read that sees the flag, each changed entry is a pruning of its node and one of those writes, and every node written is filled; the result is always a pruning of the reference tree: a prefix of the node's primitive children, the node's own fields, and either no children or one pruned child per listed child, none when the geometry was cut short; the build makes at least two and at most `NodeReads` reads of the flag; when its first read already sees the flag the node is the bare shell and the cache is left alone; when none of its reads sees the flag the node equals the reference tree, after exactly `NodeReads` reads, and every node of the subtree is cached |
| NodeBuilder.BuildChildren | Sources/glTFSceneKit/GLTF+SceneKit.swift:259-264 | one result per child, the k-th built from the k-th listed index; the cache changes only within the children's subtrees; the writes made are exactly those of the children's reference schedule, read numbers continuing from one child to the next, whose read comes before the flag, so no child or descendant whose write comes after the flag is cached; each result is a pruning of that child's reference tree; the reads lie between two per child and `ForestReads`; when the first read already sees the flag every child is a bare shell and the cache is left alone; when none of its reads sees the flag the results equal the reference trees, after exactly `ForestReads` reads, and the whole forest is cached |
| NodeBuilder.BuildNodeAfterGeometry | Sources/glTFSceneKit/GLTF+SceneKit.swift:254-258 | the node is the shell of exactly the primitives the geometry build returned; if the read after the geometry sees the flag the node has no children, the cache is untouched and that read is the last; otherwise the node is cached with one child per listed child |
| NodeBuilder.Descend | Sources/glTFSceneKit/GLTF+SceneKit.swift:254-264 | a node whose read after the geometry was clear is cached as the returned node and gets one child per listed child, built in order; its writes are those of its reference schedule up to the flag; it is a pruning of the reference tree, and equals it when no later read sees the flag, in which case its whole subtree is cached |
| NodeBuilder.NodeWrites | Sources/glTFSceneKit/GLTF+SceneKit.swift:231-264 | the reference schedule of a node starts with the node's own write, made after its entry read and one read per primitive, and every write in it falls within the node's reads |
| NodeBuilder.ForestWrites | Sources/glTFSceneKit/GLTF+SceneKit.swift:259-264 | the reference schedule of a child list chains the children's schedules, and every write in it falls within the list's reads |
| NodeBuilder.BeforeFlagAppend | Sources/glTFSceneKit/GLTF+SceneKit.swift:254-257 | keeping the writes made before the flag commutes with concatenating schedules |
| NodeBuilder.FollowsFromEmpty | Sources/glTFSceneKit/GLTF+SceneKit.swift:96 | a cache that starts empty holds an entry exactly for the nodes written, each a pruning of its node |
| NodeBuilder.FirstSibling | Sources/glTFSceneKit/GLTF+SceneKit.swift:254-257 | a leaf built while the flag is first seen by the third read takes two reads, is cached and is the only write |
| NodeBuilder.FlagBetweenSiblings | Sources/glTFSceneKit/GLTF+SceneKit.swift:254-264 | two sibling leaves with the flag first seen by the third read: the first leaf is cached, the second leaf's build starts at a read that sees the flag and leaves its cache entry empty, the log holds the first leaf's write only, and both are returned after four reads |
| Conversion.ClearCache | Sources/glTFSceneKit/GLTF+SceneKit.swift:516-529 | every buffer and image loses its payload and nothing else in the document changes |
| Conversion.Converted | Sources/glTFSceneKit/GLTF+SceneKit.swift:167-178 | the handler fires iff still installed and is then disarmed; the node cache is emptied; payloads are cleared |
| Conversion.CompletionAtMostOnce | Sources/glTFSceneKit/GLTF+SceneKit.swift:172-173 | finalising twice fires the handler at most once |
| Conversion.LoadAnimationsAndComplete | Sources/glTFSceneKit/GLTF+SceneKit.swift:157-164 | finalises iff the texture array is present and empty, and changes nothing otherwise |
| Conversion.Convert | Sources/glTFSceneKit/GLTF+SceneKit.swift:59-146 | a rejected required extension yields no scene, no completion, no state change and no read of the flag; otherwise the scene is dropped exactly when the last read of the flag sees it, and that read comes after at least two reads per root node and at most the reads of the whole forest; a returned scene carries the default scene's name and the reference tree of each of its root nodes, in order, after exactly one read per node of the forest plus the final one; without a default scene there is one read and no node cache; completion fires iff accepted, a default scene exists and the texture array is present and empty, and then empties the node cache; without completion the document is unchanged, and with a default scene the node cache holds an entry exactly for the nodes whose scheduled write comes before the flag, each a pruning of its node, all of the forest being cached as reference trees when the scene is returned |
| Conversion.BuildRoots | Sources/glTFSceneKit/GLTF+SceneKit.swift:132-135 | the root loop starts from an empty cache and leaves an entry exactly for the nodes whose scheduled write comes before the flag, each a pruning of its node; it makes between two reads per root and the reads of the forest; when no read sees the flag the roots are the reference trees and the whole forest is cached |
| Conversion.UnknownRequiredExtensionConverts | Sources/glTFSceneKit/GLTF+SceneKit.swift:73-80 | a document requiring an unknown extension converts to nothing and creates no node cache |

## Left out

- The multi-threaded path of `convert` (`DispatchGroup`, preload callbacks building nodes concurrently) is not modelled; `Conversion.Convert` is the `multiThread == false` path.
- The resource loader (`loader.load`, `cancelAll`, directory paths) is I/O: a buffer's payload is either present in the document or absent, and `PreloadBuffers` stops at the set of buffers it would request.
- The Draco codec (`convertDracoMesh`) is a function parameter whose element and sources are taken as given.
- Camera construction, skins, materials, animations (`parseAnimations`) and the baked transform matrix are collaborators or floating point; a node records only which camera and skin it references.
- The caller-supplied `SCNScene` is replaced by an output record of the scene name and root nodes; the renderer argument is not modelled.
- Swift `Int` overflow is not modelled: offsets, strides and counts are unbounded naturals.
- Swift dictionary iteration order is unspecified; attribute dictionaries are sequences in the order iteration visits them.
- ByteLayout.LoadAccessor: the trap of `Data.subdata` on a range outside the payload is a precondition (`AccessorOk`) instead of a modelled crash.
- Geometry.GeometryElement: requires the index accessor, when the accessor array is present, to be in range and its slice to lie within a loaded payload (`AccessorOk`); the source traps on either.
- Geometry.GeometrySource: the same precondition for each attribute accessor.
- NodeBuilder.BuildNode: requires every node of the document, not only those the build reaches, to have in-range children and mesh references with loadable accessor slices, and a rank witnessing an acyclic hierarchy, as glTF 2.0 section 3.5.2 requires of a valid asset; the source only touches the nodes it reaches, traps on a bad index and loops forever on a cycle.
- Conversion.Convert: requires the force-unwraps of the default scene, its node list and the node array to succeed, rather than modelling the trap, and requires every node of the document to be well formed as `NodeBuilder.BuildNode` does, so a document whose unreachable nodes are malformed is outside the model although the source converts it.
- Conversion.BuildRoots: carries the same requirements as `Conversion.Convert` for the same reason.
- Extensions.Validate: compares extension names by code point, whereas Swift's `String` equality (lines 67, 75, and the Draco lookups at 191 and 333) is canonical equivalence; names that differ only in Unicode normalisation are treated as different.
- Cancellation: `isCanceled` has a public setter (GLTF+SceneKit.swift:30-34), so a caller could set it back to `false` in the middle of a conversion; the model assumes nobody does, which is what lets a single index (the first read that sees the flag) stand for the flag's whole history.
- Weight paths are stated for primitive children only, which are the only children a node has when the paths are collected.

=== FILE: cancellation.dfy ===
/** The converter's cancellation flag. `cancel()` may run at any moment from
    another thread and sets the flag; the model assumes that nothing clears
    it again while a conversion runs, so the only thing that matters to the
    converter is which of its reads of `isCanceled` is the first to see
    `true`. The model numbers the reads (a "tick" counts them) and takes
    that first index as a parameter: `None` when cancellation never happens
    during the conversion. */
module Cancellation {
  import opened Wrappers

  type Cancel = Option<nat>

  /** The value the `tick`-th read of the flag sees. */
  predicate Canceled(c: Cancel, tick: nat) {
    c.Some? && c.value <= tick
  }

  /** None of the first `n` reads sees the flag. */
  predicate Unseen(c: Cancel, n: nat) {
    c.None? || n <= c.value
  }

  /** `Unseen` is exactly "no read numbered below `n` sees the flag". */
  lemma UnseenIff(c: Cancel, n: nat)
    ensures Unseen(c, n) <==> forall t: nat :: t < n ==> !Canceled(c, t)
  {
    if !Unseen(c, n) {
      assert Canceled(c, c.value);
    }
  }
}

=== FILE: conversion.dfy ===
/** The single-threaded path of `convert`, its finalisation
    (`_loadAnimationsAndCompleteConvertion`, `_converted`) and `clearCache`. */
module Conversion {
  import opened Wrappers
  import opened Gltf
  import opened Extensions
  import opened Cancellation
  import opened Geometry
  import opened NodeBuilder

  /** The per-conversion state the source keeps beside the document: the
      node cache (absent until `convert` creates it) and whether the caller's
      completion handler is still installed. */
  datatype Session = Session(doc: Document, cache: Option<seq<Option<SceneNode>>>, handlerArmed: bool)

  datatype OutputScene = OutputScene(name: Option<string>, roots: seq<SceneNode>)

  /** What a conversion returns and leaves behind; `flagReads` is how many
      times it read `isCanceled`, the last of them being the one that decides
      whether the scene is returned. */
  datatype Outcome = Outcome(
    validation: Validation,
    scene: Option<OutputScene>,
    session: Session,
    completionFired: bool,
    flagReads: nat)

  function ClearBuffer(b: Buffer): Buffer {
    b.(data := None)
  }

  function ClearImage(i: Image): Image {
    i.(image := None)
  }

  /** `clearCache`: every buffer and image drops its payload; nothing else changes. */
  function ClearCache(doc: Document): (r: Document)
    ensures r.buffers.Some? <==> doc.buffers.Some?
    ensures doc.buffers.Some? ==>
      && |r.buffers.value| == |doc.buffers.value|
      && forall k :: 0 <= k < |doc.buffers.value| ==>
           r.buffers.value[k].data.None? && r.buffers.value[k].(data := doc.buffers.value[k].data) == doc.buffers.value[k]
    ensures r.images.Some? <==> doc.images.Some?
    ensures doc.images.Some? ==>
      && |r.images.value| == |doc.images.value|
      && forall k :: 0 <= k < |doc.images.value| ==>
           r.images.value[k].image.None? && r.images.value[k].(image := doc.images.value[k].image) == doc.images.value[k]
    ensures r.(buffers := doc.buffers, images := doc.images) == doc
  {
    var buffers :=
      match doc.buffers
      case None => None
      case Some(bs) => Some(seq(|bs|, k requires 0 <= k < |bs| => ClearBuffer(bs[k])));
    var images :=
      match doc.images
      case None => None
      case Some(ims) => Some(seq(|ims|, k requires 0 <= k < |ims| => ClearImage(ims[k])));
    doc.(buffers := buffers, images := images)
  }

  /** `_converted`: the caller's handler fires if still installed and is
      replaced by a no-op; the node cache is emptied and the payloads cleared. */
  function Converted(s: Session): (r: (Session, bool))
    ensures r.1 == s.handlerArmed
    ensures !r.0.handlerArmed
    ensures r.0.cache.Some? <==> s.cache.Some?
    ensures r.0.cache.Some? ==> r.0.cache.value == []
    ensures r.0.doc == ClearCache(s.doc)
  {
    var cache := if s.cache.Some? then Some([]) else None;
    (Session(ClearCache(s.doc), cache, false), s.handlerArmed)
  }

  /** The completion handler fires at most once, however often the
      conversion is finalised. */
  lemma CompletionAtMostOnce(s: Session)
    ensures var (s1, fired1) := Converted(s);
      var (s2, fired2) := Converted(s1);
      !fired2 && (fired1 <==> s.handlerArmed)
  {
  }

  /** Whether `_loadAnimationsAndCompleteConvertion` finalises at once: only
      when the texture array is present and empty (`textures?.count == 0`
      is false for an absent array). */
  predicate CompletesImmediately(doc: Document) {
    doc.textures.Some? && |doc.textures.value| == 0
  }

  /** `_loadAnimationsAndCompleteConvertion`. Building the animations is a
      collaborator outside the model; with textures to load, finalisation
      is left to the texture loads. */
  function LoadAnimationsAndComplete(s: Session): (r: (Session, bool))
    ensures CompletesImmediately(s.doc) ==> r == Converted(s)
    ensures !CompletesImmediately(s.doc) ==> r == (s, false)
  {
    if s.doc.textures.Some? && |s.doc.textures.value| == 0 then Converted(s) else (s, false)
  }

  function RankBound(rank: seq<nat>): (b: nat)
    ensures forall k :: 0 <= k < |rank| ==> rank[k] < b
  {
    if |rank| == 0 then 0
    else
      var rest := RankBound(rank[1..]);
      assert forall k :: 1 <= k < |rank| ==> rank[k] == rank[1..][k - 1];
      if rank[0] + 1 > rest then rank[0] + 1 else rest
  }

  /** What the single-threaded path force-unwraps: the default scene's node
      list, the node array, and the validity of the node tree below it. */
  predicate SceneOk(doc: Document, rank: seq<nat>) {
    doc.scenes.Some? && doc.scene.Some? ==>
      && doc.scene.value < |doc.scenes.value|
      && doc.scenes.value[doc.scene.value].nodes.Some?
      && doc.nodes.Some?
      && TreeOk(doc, rank)
      && forall k :: 0 <= k < |doc.scenes.value[doc.scene.value].nodes.value| ==>
           doc.scenes.value[doc.scene.value].nodes.value[k] < |doc.nodes.value|
  }

  function RootNodes(doc: Document): seq<nat>
    requires doc.scenes.Some? && doc.scene.Some? && doc.scene.value < |doc.scenes.value|
    requires doc.scenes.value[doc.scene.value].nodes.Some?
  {
    doc.scenes.value[doc.scene.value].nodes.value
  }

  /** The default scene's roots are listed nodes of rank below the bound. */
  lemma RootsBelow(doc: Document, rank: seq<nat>)
    requires SceneOk(doc, rank) && doc.scenes.Some? && doc.scene.Some?
    ensures ChildrenBelow(doc.nodes.value, rank, RootNodes(doc), RankBound(rank))
  {
  }

  /** A node cache with no entry, as `convert` allocates it. */
  function Uncached(n: nat): (c: seq<Option<SceneNode>>)
    ensures |c| == n && forall j :: 0 <= j < n ==> c[j].None?
  {
    seq(n, _ => None)
  }

  /** The single-threaded root loop of `convert`: a fresh node cache, then
      every root node of the default scene built in order. The cache ends up
      holding an entry exactly for the nodes whose write comes before the
      flag in the reference schedule, each a pruning of its node; when no
      read sees the flag, the roots are the reference trees and the whole
      forest is cached. */
  function BuildRoots(doc: Document, cancel: Cancel, codec: DracoExtension -> DracoResult, ghost rank: seq<nat>)
    : (r: (seq<SceneNode>, BuildState))
    requires SceneOk(doc, rank) && doc.scenes.Some? && doc.scene.Some?
    ensures ChildrenBelow(doc.nodes.value, rank, RootNodes(doc), RankBound(rank))
    ensures |r.0| == |RootNodes(doc)| && |r.1.cache| == |doc.nodes.value|
    ensures forall j :: 0 <= j < |doc.nodes.value| ==>
      (r.1.cache[j].Some? <==>
         j in WrittenNodes(BeforeFlag(ForestWrites(doc, RootNodes(doc), 0, rank, RankBound(rank)), cancel)))
    ensures forall j :: 0 <= j < |doc.nodes.value| && r.1.cache[j].Some? ==>
      Pruned(doc, j, r.1.cache[j].value, codec, rank)
    ensures 2 * |RootNodes(doc)| <= r.1.tick <= ForestReads(doc, RootNodes(doc), rank, RankBound(rank))
    ensures Unseen(cancel, r.1.tick) ==>
      && r.0 == PureChildren(doc, RootNodes(doc), codec, rank, RankBound(rank))
      && r.1.tick == ForestReads(doc, RootNodes(doc), rank, RankBound(rank))
      && CachedPure(doc, codec, rank, r.1.cache, Forest(doc.nodes.value, rank, RootNodes(doc), RankBound(rank)))
  {
    RootsBelow(doc, rank);
    var cache := Uncached(|doc.nodes.value|);
    var r := BuildChildren(doc, RootNodes(doc), cancel, codec, BuildState(cache, 0, []), rank, RankBound(rank));
    FollowsFromEmpty(doc, codec, rank, cache, r.1.cache,
                     BeforeFlag(ForestWrites(doc, RootNodes(doc), 0, rank, RankBound(rank)), cancel));
    r
  }

  /** `convert` with `multiThread` false. Validation comes first and an
      unsupported required extension returns nothing before any state is
      touched; otherwise the default scene's root nodes are built in order
      with a fresh cache, the conversion is finalised, and the result is
      dropped when the last read of the flag sees a cancellation. */
  function Convert(doc: Document, cancel: Cancel, codec: DracoExtension -> DracoResult, ghost rank: seq<nat>)
    : (r: Outcome)
    requires SceneOk(doc, rank)
    ensures r.validation == Validate(doc.extensionsUsed, doc.extensionsRequired)
    ensures r.validation.rejected.Some? ==>
      r.scene.None? && !r.completionFired && r.session == Session(doc, None, false) && r.flagReads == 0
    ensures r.validation.rejected.None? ==>
      && r.flagReads >= 1
      && (r.scene.None? <==> Canceled(cancel, r.flagReads - 1))
    ensures r.validation.rejected.None? && cancel.None? ==> r.scene.Some?
    ensures cancel == Some(0) ==> r.scene.None?
    ensures r.validation.rejected.None? && !(doc.scenes.Some? && doc.scene.Some?) ==>
      r.flagReads == 1 && r.session == Session(doc, None, true) && !r.completionFired
    ensures r.completionFired <==>
      r.validation.rejected.None? && doc.scenes.Some? && doc.scene.Some? && CompletesImmediately(doc)
    ensures r.completionFired ==>
      !r.session.handlerArmed && r.session.doc == ClearCache(doc) && r.session.cache == Some([])
    ensures !r.completionFired ==> r.session.doc == doc
    ensures r.validation.rejected.None? && doc.scenes.Some? && doc.scene.Some? ==>
      ChildrenBelow(doc.nodes.value, rank, RootNodes(doc), RankBound(rank))
    ensures r.validation.rejected.None? && doc.scenes.Some? && doc.scene.Some? && !r.completionFired ==>
      && r.session.handlerArmed
      && r.session.cache.Some?
      && |r.session.cache.value| == |doc.nodes.value|
      && (forall j :: 0 <= j < |doc.nodes.value| ==>
            (r.session.cache.value[j].Some? <==>
               j in WrittenNodes(BeforeFlag(ForestWrites(doc, RootNodes(doc), 0, rank, RankBound(rank)), cancel))))
      && (forall j :: 0 <= j < |doc.nodes.value| && r.session.cache.value[j].Some? ==>
            Pruned(doc, j, r.session.cache.value[j].value, codec, rank))
      && (r.scene.Some? ==>
            CachedPure(doc, codec, rank, r.session.cache.value, Forest(doc.nodes.value, rank, RootNodes(doc), RankBound(rank))))
    ensures r.validation.rejected.None? && doc.scenes.Some? && doc.scene.Some? ==>
      && 1 + 2 * |RootNodes(doc)| <= r.flagReads <= 1 + ForestReads(doc, RootNodes(doc), rank, RankBound(rank))
      && (r.scene.Some? ==>
            && r.flagReads == 1 + ForestReads(doc, RootNodes(doc), rank, RankBound(rank))
            && r.scene == Some(OutputScene(doc.scenes.value[doc.scene.value].name,
                                           PureChildren(doc, RootNodes(doc), codec, rank, RankBound(rank)))))
      && (Unseen(cancel, r.flagReads) <==> r.scene.Some?)
  {
    var validation := Validate(doc.extensionsUsed, doc.extensionsRequired);
    if validation.rejected.Some? then Outcome(validation, None, Session(doc, None, false), false, 0)
    else
      var armed := Session(doc, None, true);
      if doc.scenes.Some? && doc.scene.Some? then
        var sceneGltf := doc.scenes.value[doc.scene.value];
        var (roots, st) := BuildRoots(doc, cancel, codec, rank);
        var (session, fired) := LoadAnimationsAndComplete(armed.(cache := Some(st.cache)));
        var scene := if Canceled(cancel, st.tick) then None else Some(OutputScene(sceneGltf.name, roots));
        Outcome(validation, scene, session, fired, st.tick + 1)
      else
        var scene := if Canceled(cancel, 0) then None else Some(OutputScene(None, []));
        Outcome(validation, scene, armed, false, 1)
  }

  /** An unknown required extension: no scene, no cache, no completion. */
  lemma UnknownRequiredExtensionConverts(doc: Document, cancel: Cancel, codec: DracoExtension -> DracoResult,
                                         rank: seq<nat>)
    requires SceneOk(doc, rank)
    requires doc.extensionsRequired == Some(["UNKNOWN_EXT"])
    ensures Convert(doc, cancel, codec, rank).scene.None?
    ensures Convert(doc, cancel, codec, rank).session.cache.None?
  {
    UnknownRequiredExample();
  }
}

=== FILE: decimal.dfy ===
/** Decimal rendering of naturals, as Swift's string interpolation prints
    them, and its parsing inverse. */
module Decimal {

  predicate IsDigit(c: char) {
    '0' <= c <= '9'
  }

  predicate AllDigits(s: string) {
    forall i :: 0 <= i < |s| ==> IsDigit(s[i])
  }

  function DigitChar(d: nat): (c: char)
    requires d < 10
    ensures IsDigit(c)
  {
    "0123456789"[d]
  }

  function DigitValue(c: char): (d: nat)
    requires IsDigit(c)
    ensures d < 10
  {
    (c as int - '0' as int) as nat
  }

  /** The canonical numeral: no leading zero except for zero itself. */
  function Show(n: nat): (s: string)
    ensures |s| >= 1
    ensures AllDigits(s)
    ensures n < 10 <==> |s| == 1
    ensures s[0] == '0' <==> n == 0
    decreases n
  {
    if n < 10 then [DigitChar(n)] else Show(n / 10) + [DigitChar(n % 10)]
  }

  function Parse(s: string): nat
    requires AllDigits(s)
    decreases |s|
  {
    if |s| == 0 then 0 else Parse(s[..|s| - 1]) * 10 + DigitValue(s[|s| - 1])
  }

  lemma DigitRoundTrip(d: nat)
    requires d < 10
    ensures DigitValue(DigitChar(d)) == d
  {
  }

  /** Parsing what `Show` prints gives the number back. */
  lemma {:induction false} ParseShow(n: nat)
    ensures Parse(Show(n)) == n
    decreases n
  {
    var s := Show(n);
    if n < 10 {
      DigitRoundTrip(n);
    } else {
      ParseShow(n / 10);
      DigitRoundTrip(n % 10);
      assert s[..|s| - 1] == Show(n / 10);
    }
  }

  /** Distinct numbers print differently. */
  lemma ShowInjective(m: nat, n: nat)
    requires Show(m) == Show(n)
    ensures m == n
  {
    ParseShow(m);
    ParseShow(n);
  }
}

=== FILE: extensions.dfy ===
/** Extension validation at the start of `convert`: unsupported used
    extensions are only reported, the first unsupported required extension
    aborts the conversion. */
module Extensions {
  import opened Wrappers

  const DracoExtensionKey: string := "KHR_draco_mesh_compression"
  const CompressedTextureExtensionKey: string := "3D4M_compressed_texture"
  const SupportedExtensions: seq<string> := [DracoExtensionKey, CompressedTextureExtensionKey]

  predicate Supported(key: string) {
    key in SupportedExtensions
  }

  /** The unsupported entries of `keys`, in order, one report per entry. */
  function Unsupported(keys: seq<string>): (r: seq<string>)
    ensures |r| <= |keys|
    ensures forall k :: k in r <==> k in keys && !Supported(k)
    ensures forall k :: multiset(r)[k] == if Supported(k) then 0 else multiset(keys)[k]
  {
    if |keys| == 0 then []
    else
      var rest := Unsupported(keys[1..]);
      assert keys == [keys[0]] + keys[1..];
      if Supported(keys[0]) then rest else [keys[0]] + rest
  }

  /** The first unsupported entry of `keys`, if any. */
  function FirstUnsupported(keys: seq<string>): (r: Option<nat>)
    ensures r.None? <==> forall i :: 0 <= i < |keys| ==> Supported(keys[i])
    ensures r.Some? ==> r.value < |keys| && !Supported(keys[r.value])
    ensures r.Some? ==> forall i :: 0 <= i < r.value ==> Supported(keys[i])
  {
    if |keys| == 0 then None
    else if !Supported(keys[0]) then Some(0)
    else
      match FirstUnsupported(keys[1..])
      case None => None
      case Some(i) => Some(i + 1)
  }

  /** Outcome of validation: the used extensions reported as unsupported,
      and the required extension that aborted the conversion, if any. */
  datatype Validation = Validation(usedReports: seq<string>, rejected: Option<string>)

  function Validate(used: Option<seq<string>>, required: Option<seq<string>>): (v: Validation)
    ensures v.rejected.Some? <==> required.Some? && exists i :: 0 <= i < |required.value| && !Supported(required.value[i])
    ensures v.rejected.Some? ==> v.rejected.value in required.value && !Supported(v.rejected.value)
    ensures v.rejected.Some? ==>
      exists i :: 0 <= i < |required.value| && required.value[i] == v.rejected.value &&
        forall j :: 0 <= j < i ==> Supported(required.value[j])
    ensures used.None? ==> v.usedReports == []
    ensures used.Some? ==> forall k :: k in v.usedReports <==> k in used.value && !Supported(k)
  {
    var reports := if used.Some? then Unsupported(used.value) else [];
    var rejected :=
      if required.None? then None
      else match FirstUnsupported(required.value)
        case None => None
        case Some(i) => Some(required.value[i]);
    Validation(reports, rejected)
  }

  /** Used extensions never abort: the verdict depends on the required list only. */
  lemma UsedNeverAborts(used1: Option<seq<string>>, used2: Option<seq<string>>, required: Option<seq<string>>)
    ensures Validate(used1, required).rejected == Validate(used2, required).rejected
  {
  }

  /** A required extension outside the supported pair aborts the conversion. */
  lemma UnknownRequiredExample()
    ensures Validate(None, Some(["UNKNOWN_EXT"])).rejected == Some("UNKNOWN_EXT")
  {
    assert !Supported("UNKNOWN_EXT");
  }
}

=== FILE: geometry.dfy ===
/** Geometry assembly: `geometryElement`, `geometrySources` and
    `geometryNode`, producing the parameters the converter passes to
    SceneKit's geometry source, geometry element and morpher constructors. */
module Geometry {
  import opened Wrappers
  import opened Gltf
  import opened ByteLayout
  import opened Topology
  import opened Semantics
  import opened Cancellation

  /** Arguments of `SCNGeometrySource(data:semantic:vectorCount:...)`. */
  datatype SourceSpec = SourceSpec(
    data: seq<byte>,
    semantic: Semantic,
    vectorCount: nat,
    usesFloatComponents: bool,
    componentsPerVector: nat,
    bytesPerComponent: nat,
    dataOffset: nat,
    dataStride: nat)

  /** Arguments of `SCNGeometryElement(data:primitiveType:primitiveCount:bytesPerIndex:)`. */
  datatype ElementSpec = ElementSpec(
    data: seq<byte>,
    primitiveType: ScnPrimitiveType,
    primitiveCount: int,
    bytesPerIndex: nat)

  /** What the Draco codec collaborator (`convertDracoMesh`) returns. */
  datatype DracoResult = DracoResult(element: Option<ElementSpec>, sources: Option<seq<SourceSpec>>)

  /** How SceneKit combines morph targets (`SCNMorpherCalculationMode`). */
  datatype CalculationMode = Normalized | Additive

  /** An `SCNMorpher`: one source set per target, and the combination mode. */
  datatype Morpher = Morpher(targets: seq<seq<SourceSpec>>, calculationMode: CalculationMode)

  /** One child node per primitive: its geometry, material reference and
      morpher (`None` when the primitive has no targets array). */
  datatype PrimitiveNode = PrimitiveNode(
    name: Option<string>,
    elements: seq<ElementSpec>,
    sources: seq<SourceSpec>,
    material: Option<nat>,
    morpher: Option<Morpher>)

  /** An accessor index `self.accessors?[i]` may follow without trapping,
      and whose accessor `loadAcessor` may resolve. */
  predicate AccessorIndexOk(doc: Document, index: nat) {
    doc.accessors.Some? ==> index < |doc.accessors.value| && AccessorOk(doc, doc.accessors.value[index])
  }

  predicate AttributesOk(doc: Document, attributes: Attributes) {
    forall k :: 0 <= k < |attributes| ==> AccessorIndexOk(doc, attributes[k].1)
  }

  predicate PrimitiveOk(doc: Document, p: Primitive) {
    && (p.indices.Some? ==> AccessorIndexOk(doc, p.indices.value))
    && AttributesOk(doc, p.attributes)
    && (p.targets.Some? ==> forall t :: t in p.targets.value ==> AttributesOk(doc, t))
  }

  /** `geometryElement`: the index stream of a primitive, with the primitive
      count SceneKit expects for the primitive's topology. Absent when the
      primitive has no indices, the accessor array is absent, or the index
      data cannot be loaded. */
  function GeometryElement(doc: Document, p: Primitive): (r: Option<ElementSpec>)
    requires p.indices.Some? ==> AccessorIndexOk(doc, p.indices.value)
    ensures r.Some? <==>
      p.indices.Some? && doc.accessors.Some? && LoadAccessor(doc, doc.accessors.value[p.indices.value]).Some?
    ensures r.Some? ==>
      var a := doc.accessors.value[p.indices.value];
      && r.value.data == LoadAccessor(doc, a).value.data
      && r.value.primitiveType == Scn(p.mode)
      && r.value.bytesPerIndex == BytesPerElement(a.componentType)
      && forall n: nat {:trigger IndicesNeeded(Scn(p.mode), n)} ::
           IndicesNeeded(Scn(p.mode), n) <= a.count <==> n <= r.value.primitiveCount
  {
    if p.indices.None? || doc.accessors.None? then None
    else
      var accessor := doc.accessors.value[p.indices.value];
      match LoadAccessor(doc, accessor)
      case None => None
      case Some(resolved) =>
        var primitiveType := Scn(p.mode);
        Some(ElementSpec(resolved.data, primitiveType, PrimitiveCount(primitiveType, accessor.count),
                         BytesPerElement(accessor.componentType)))
  }

  /** The geometry source of one attribute, when its accessor resolves. */
  function GeometrySource(doc: Document, name: string, index: nat): (r: Option<SourceSpec>)
    requires AccessorIndexOk(doc, index)
    ensures r.Some? <==> doc.accessors.Some? && LoadAccessor(doc, doc.accessors.value[index]).Some?
    ensures r.Some? ==>
      var a := doc.accessors.value[index];
      var resolved := LoadAccessor(doc, a).value;
      && r.value.semantic == SourceSemantic(name)
      && r.value.vectorCount == a.count
      && r.value.usesFloatComponents
      && r.value.componentsPerVector == Components(a.accessorType)
      && r.value.bytesPerComponent == BytesPerElement(a.componentType)
      && r.value.data == resolved.data
      && r.value.dataOffset == resolved.elementOffset
      && r.value.dataStride == resolved.stride
  {
    if doc.accessors.None? then None
    else
      var accessor := doc.accessors.value[index];
      match LoadAccessor(doc, accessor)
      case None => None
      case Some(resolved) =>
        Some(SourceSpec(resolved.data, SourceSemantic(name), accessor.count, true,
                        Components(accessor.accessorType), BytesPerElement(accessor.componentType),
                        resolved.elementOffset, resolved.stride))
  }

  /** What each attribute resolves to, in order. */
  function Outcomes(doc: Document, attributes: Attributes): (o: seq<Option<SourceSpec>>)
    requires AttributesOk(doc, attributes)
    ensures |o| == |attributes|
    ensures forall k :: 0 <= k < |o| ==> o[k] == GeometrySource(doc, attributes[k].0, attributes[k].1)
  {
    seq(|attributes|, k requires 0 <= k < |attributes| => GeometrySource(doc, attributes[k].0, attributes[k].1))
  }

  /** Positions holding source `s`. */
  function Hits(outcomes: seq<Option<SourceSpec>>, s: SourceSpec): set<nat> {
    set k | 0 <= k < |outcomes| && outcomes[k] == Some(s)
  }

  /** Extending the outcomes by one adds its position to the hits of the
      source it holds, and to no other. */
  lemma HitsStep(outcomes: seq<Option<SourceSpec>>, s: SourceSpec)
    requires |outcomes| > 0
    ensures var last := |outcomes| - 1;
      |Hits(outcomes, s)| == |Hits(outcomes[..last], s)| + (if outcomes[last] == Some(s) then 1 else 0)
  {
    var last := |outcomes| - 1;
    var h := Hits(outcomes[..last], s);
    if outcomes[last] == Some(s) {
      assert Hits(outcomes, s) == h + {last};
    } else {
      assert Hits(outcomes, s) == h;
    }
  }

  /** The sources held by `outcomes`, in order, skipping the absent ones;
      each occurs as often as it is held. */
  function Present(outcomes: seq<Option<SourceSpec>>): (r: seq<SourceSpec>)
    ensures |r| <= |outcomes|
    ensures forall s :: multiset(r)[s] == |Hits(outcomes, s)|
    decreases |outcomes|
  {
    if |outcomes| == 0 then []
    else
      var last := |outcomes| - 1;
      var r := Present(outcomes[..last]) + outcomes[last].ToSeq();
      assert forall s :: multiset(r)[s] == |Hits(outcomes, s)| by {
        forall s
          ensures multiset(r)[s] == |Hits(outcomes, s)|
        {
          HitsStep(outcomes, s);
        }
      }
      r
  }

  /** Keeping the present sources commutes with concatenation, so the
      sources come out in the order of the attributes they come from. */
  lemma {:induction false} PresentAppend(a: seq<Option<SourceSpec>>, b: seq<Option<SourceSpec>>)
    ensures Present(a + b) == Present(a) + Present(b)
    decreases |b|
  {
    if |b| == 0 {
      assert a + b == a;
    } else {
      var last := |b| - 1;
      var ab := a + b;
      assert ab[..|ab| - 1] == a + b[..last];
      calc {
        Present(ab);
        Present(a + b[..last]) + b[last].ToSeq();
        { PresentAppend(a, b[..last]); }
        (Present(a) + Present(b[..last])) + b[last].ToSeq();
        Present(a) + (Present(b[..last]) + b[last].ToSeq());
        Present(a) + Present(b);
      }
    }
  }

  /** `geometrySources`: one source per resolvable attribute, in the
      dictionary's iteration order; attributes that do not resolve are
      skipped. Each source occurs as often as attributes resolve to it. */
  function GeometrySources(doc: Document, attributes: Attributes): (r: seq<SourceSpec>)
    requires AttributesOk(doc, attributes)
    ensures |r| <= |attributes|
    ensures forall s :: multiset(r)[s] == |Hits(Outcomes(doc, attributes), s)|
  {
    Present(Outcomes(doc, attributes))
  }

  /** A source is produced exactly when some attribute resolves to it, and
      every attribute that resolves contributes its source. */
  lemma SourcesMembership(doc: Document, attributes: Attributes)
    requires AttributesOk(doc, attributes)
    ensures forall k :: 0 <= k < |attributes| && GeometrySource(doc, attributes[k].0, attributes[k].1).Some? ==>
      GeometrySource(doc, attributes[k].0, attributes[k].1).value in GeometrySources(doc, attributes)
    ensures forall s :: s in GeometrySources(doc, attributes) <==>
      exists k :: 0 <= k < |attributes| && GeometrySource(doc, attributes[k].0, attributes[k].1) == Some(s)
  {
    var r := GeometrySources(doc, attributes);
    forall k | 0 <= k < |attributes| && GeometrySource(doc, attributes[k].0, attributes[k].1).Some?
      ensures GeometrySource(doc, attributes[k].0, attributes[k].1).value in r
    {
      var s := GeometrySource(doc, attributes[k].0, attributes[k].1).value;
      assert k in Hits(Outcomes(doc, attributes), s);
      assert multiset(r)[s] > 0;
    }
    forall s | s in r
      ensures exists k :: 0 <= k < |attributes| && GeometrySource(doc, attributes[k].0, attributes[k].1) == Some(s)
    {
      assert multiset(r)[s] > 0;
      var k :| k in Hits(Outcomes(doc, attributes), s);
    }
  }

  /** One primitive child node: the standard index element and sources come
      first, the Draco codec's element and sources are appended after them,
      and each morph target becomes its own source set, in declaration order. */
  function BuildPrimitive(doc: Document, meshName: Option<string>, p: Primitive,
                          codec: DracoExtension -> DracoResult): (r: PrimitiveNode)
    requires PrimitiveOk(doc, p)
    ensures GeometryElement(doc, p).ToSeq() <= r.elements
    ensures GeometrySources(doc, p.attributes) <= r.sources
    ensures p.draco.None? ==>
      r.elements == GeometryElement(doc, p).ToSeq() && r.sources == GeometrySources(doc, p.attributes)
    ensures p.draco.Some? ==>
      var d := codec(p.draco.value);
      && |r.elements| == |GeometryElement(doc, p).ToSeq()| + |d.element.ToSeq()|
      && r.elements[|GeometryElement(doc, p).ToSeq()|..] == d.element.ToSeq()
      && (d.sources.Some? ==> r.sources[|GeometrySources(doc, p.attributes)|..] == d.sources.value)
      && (d.sources.None? ==> r.sources == GeometrySources(doc, p.attributes))
    ensures r.morpher.Some? <==> p.targets.Some?
    ensures p.targets.Some? ==>
      && r.morpher.value.calculationMode == Additive
      && |r.morpher.value.targets| == |p.targets.value|
      && forall j :: 0 <= j < |p.targets.value| ==>
           r.morpher.value.targets[j] == GeometrySources(doc, p.targets.value[j])
    ensures r.name == meshName && r.material == p.material
  {
    var elements := GeometryElement(doc, p).ToSeq();
    var sources := GeometrySources(doc, p.attributes);
    var (elements', sources') :=
      match p.draco
      case None => (elements, sources)
      case Some(draco) =>
        var decoded := codec(draco);
        (elements + decoded.element.ToSeq(),
         sources + (if decoded.sources.Some? then decoded.sources.value else []));
    var morpher :=
      match p.targets
      case None => None
      case Some(targets) =>
        Some(Morpher(seq(|targets|, j requires 0 <= j < |targets| => GeometrySources(doc, targets[j])), Additive));
    PrimitiveNode(meshName, elements', sources', p.material, morpher)
  }

  /** The primitives of a node's mesh, each checked against the flag after
      it is assembled: the first primitive that sees the flag set is dropped
      and assembly stops. The result pairs the child nodes with the next
      tick. */
  function GeometryPrimitives(doc: Document, meshName: Option<string>, primitives: seq<Primitive>,
                              cancel: Cancel, tick: nat, codec: DracoExtension -> DracoResult)
    : (r: (seq<PrimitiveNode>, nat))
    requires forall p :: p in primitives ==> PrimitiveOk(doc, p)
    ensures |r.0| <= |primitives|
    ensures forall k :: 0 <= k < |r.0| ==> r.0[k] == BuildPrimitive(doc, meshName, primitives[k], codec)
    ensures |r.0| > 0 ==> !Canceled(cancel, tick + |r.0| - 1)
    ensures |r.0| < |primitives| ==> Canceled(cancel, tick + |r.0|)
    ensures r.1 == tick + |r.0| + (if |r.0| < |primitives| then 1 else 0)
    decreases |primitives|
  {
    if |primitives| == 0 then ([], tick)
    else
      var node := BuildPrimitive(doc, meshName, primitives[0], codec);
      if Canceled(cancel, tick) then ([], tick + 1)
      else
        var (rest, next) := GeometryPrimitives(doc, meshName, primitives[1..], cancel, tick + 1, codec);
        ([node] + rest, next)
  }

  /** A node's mesh reference and the primitives behind it are usable. */
  predicate MeshRefOk(doc: Document, node: Node) {
    node.mesh.Some? && doc.meshes.Some? ==>
      && node.mesh.value < |doc.meshes.value|
      && forall p :: p in doc.meshes.value[node.mesh.value].primitives ==> PrimitiveOk(doc, p)
  }

  function MeshPrimitives(doc: Document, node: Node): seq<Primitive>
    requires MeshRefOk(doc, node)
  {
    if node.mesh.None? || doc.meshes.None? then [] else doc.meshes.value[node.mesh.value].primitives
  }

  /** The primitive children of a node when nothing is cancelled. */
  function MeshNodes(doc: Document, node: Node, codec: DracoExtension -> DracoResult): (r: seq<PrimitiveNode>)
    requires MeshRefOk(doc, node)
    ensures |r| == |MeshPrimitives(doc, node)|
  {
    var primitives := MeshPrimitives(doc, node);
    var name := if node.mesh.None? || doc.meshes.None? then None else doc.meshes.value[node.mesh.value].name;
    seq(|primitives|, k requires 0 <= k < |primitives| => BuildPrimitive(doc, name, primitives[k], codec))
  }

  /** `geometryNode`: nothing when the flag is already set on entry;
      otherwise the primitive child nodes of `GeometryPrimitives`. One read
      on entry and one per assembled primitive; the build is cut short
      exactly when one of them sees the flag, and is the full list of
      `MeshNodes` when none does. */
  function GeometryNode(doc: Document, node: Node, cancel: Cancel, tick: nat,
                        codec: DracoExtension -> DracoResult): (r: (seq<PrimitiveNode>, nat))
    requires MeshRefOk(doc, node)
    ensures r.1 > tick
    ensures Canceled(cancel, tick) ==> r == ([], tick + 1)
    ensures |r.0| <= |MeshPrimitives(doc, node)|
    ensures forall k :: 0 <= k < |r.0| ==> r.0[k] == MeshNodes(doc, node, codec)[k]
    ensures r.1 <= tick + 1 + |MeshPrimitives(doc, node)|
    ensures |r.0| < |MeshPrimitives(doc, node)| ==> Canceled(cancel, r.1 - 1)
    ensures !Canceled(cancel, tick) ==>
      && !Canceled(cancel, tick + |r.0|)
      && r.1 == tick + 1 + |r.0| + (if |r.0| < |MeshPrimitives(doc, node)| then 1 else 0)
    ensures Unseen(cancel, r.1) ==>
      && r.0 == MeshNodes(doc, node, codec)
      && r.1 == tick + 1 + |MeshPrimitives(doc, node)|
  {
    if Canceled(cancel, tick) then ([], tick + 1)
    else if node.mesh.None? || doc.meshes.None? then ([], tick + 1)
    else
      var mesh := doc.meshes.value[node.mesh.value];
      GeometryPrimitives(doc, mesh.name, mesh.primitives, cancel, tick + 1, codec)
  }
}

=== FILE: gltf.dfy ===
/** The parsed glTF document as the converter sees it, and the two accessor
    size tables (`components` and `bytesPerElement`).

    Every optional array of the document (`self.nodes`, `self.accessors`, ...)
    stays an `Option`, because the converter distinguishes an absent array
    (`self.accessors?[i]` yields nothing) from an index that is out of range
    (which traps, and which the model therefore excludes by preconditions). */
module Gltf {
  import opened Wrappers

  type byte = x: int | 0 <= x < 256

  /** The component types of the glTF 2.0 specification, section 3.6.2.2. */
  datatype ComponentType = Byte | UnsignedByte | Short | UnsignedShort | UnsignedInt | Float

  /** The element types of the glTF 2.0 specification, section 3.6.2.2. */
  datatype AccessorType = Scalar | Vec2 | Vec3 | Vec4 | Mat2 | Mat3 | Mat4

  datatype Accessor = Accessor(
    bufferView: Option<nat>,
    byteOffset: nat,
    componentType: ComponentType,
    accessorType: AccessorType,
    count: nat)

  datatype BufferView = BufferView(
    buffer: nat,
    byteOffset: nat,
    byteLength: nat,
    byteStride: Option<nat>)

  /** A buffer and the payload the resource loader currently holds for it
      (`None` until loaded, and again after the cache is cleared). */
  datatype Buffer = Buffer(uri: Option<string>, byteLength: nat, data: Option<seq<byte>>)

  /** An image and its decoded payload, kept as opaque bytes. */
  datatype Image = Image(uri: Option<string>, image: Option<seq<byte>>)

  /** Primitive topologies of the glTF 2.0 specification, section 3.7.2.1. */
  datatype PrimitiveMode = Points | Lines | LineLoop | LineStrip | Triangles | TriangleStrip | TriangleFan

  /** An attribute dictionary (`[String: Int]`) in its iteration order. */
  type Attributes = seq<(string, nat)>

  /** The KHR_draco_mesh_compression extension object of a primitive. */
  datatype DracoExtension = DracoExtension(bufferView: nat, attributes: Attributes)

  datatype Primitive = Primitive(
    attributes: Attributes,
    indices: Option<nat>,
    mode: PrimitiveMode,
    material: Option<nat>,
    targets: Option<seq<Attributes>>,
    draco: Option<DracoExtension>)

  datatype Mesh = Mesh(name: Option<string>, primitives: seq<Primitive>)

  datatype Node = Node(
    name: Option<string>,
    mesh: Option<nat>,
    camera: Option<nat>,
    skin: Option<nat>,
    children: Option<seq<nat>>)

  datatype Scene = Scene(name: Option<string>, nodes: Option<seq<nat>>)

  datatype Document = Document(
    scenes: Option<seq<Scene>>,
    scene: Option<nat>,
    nodes: Option<seq<Node>>,
    meshes: Option<seq<Mesh>>,
    accessors: Option<seq<Accessor>>,
    bufferViews: Option<seq<BufferView>>,
    buffers: Option<seq<Buffer>>,
    images: Option<seq<Image>>,
    textures: Option<seq<nat>>,
    extensionsUsed: Option<seq<string>>,
    extensionsRequired: Option<seq<string>>)

  /** Shape of an element as a matrix of rows by columns: a scalar is 1x1, a
      vector of n components is n x 1, a matrix type MATn is n x n. */
  function Rows(t: AccessorType): nat
  {
    match t
    case Scalar => 1
    case Vec2 => 2
    case Vec3 => 3
    case Vec4 => 4
    case Mat2 => 2
    case Mat3 => 3
    case Mat4 => 4
  }

  function Columns(t: AccessorType): nat
  {
    match t
    case Scalar | Vec2 | Vec3 | Vec4 => 1
    case Mat2 => 2
    case Mat3 => 3
    case Mat4 => 4
  }

  /** Number of components of one element (`components()`). */
  function Components(t: AccessorType): (n: nat)
    ensures n == Rows(t) * Columns(t)
    ensures 1 <= n <= 16
  {
    match t
    case Scalar => 1
    case Vec2 => 2
    case Vec3 => 3
    case Vec4 | Mat2 => 4
    case Mat3 => 9
    case Mat4 => 16
  }

  /** Width in bits of one component, as the glTF 2.0 specification lists it. */
  function BitWidth(c: ComponentType): nat
  {
    match c
    case Byte | UnsignedByte => 8
    case Short | UnsignedShort => 16
    case UnsignedInt | Float => 32
  }

  predicate IsByteType(c: ComponentType) {
    c == Byte || c == UnsignedByte
  }

  predicate IsShortType(c: ComponentType) {
    c == Short || c == UnsignedShort
  }

  /** Bytes per component (`bytesPerElement()`): byte types take one, short
      types two, and everything else falls into the four-byte default. */
  function BytesPerElement(c: ComponentType): (n: nat)
    ensures 8 * n == BitWidth(c)
    ensures IsByteType(c) ==> n == 1
    ensures IsShortType(c) ==> n == 2
    ensures !IsByteType(c) && !IsShortType(c) ==> n == 4
  {
    match c
    case UnsignedByte | Byte => 1
    case UnsignedShort | Short => 2
    case _ => 4
  }

  /** Size in bytes of one tightly packed element. */
  function ElementSize(a: Accessor): (n: nat)
    ensures 1 <= n <= 64
  {
    Components(a.accessorType) * BytesPerElement(a.componentType)
  }
}

=== FILE: layout.dfy ===
/** The byte layout resolver (`loadAcessor` and `requestData`): for an
    accessor and its buffer view it decides where the slice handed to the
    renderer starts, how long it is, which stride the renderer steps by, and
    at which offset inside the slice the first element begins. */
module ByteLayout {
  import opened Wrappers
  import opened Gltf

  /** The integers `loadAcessor` computes: slice start and length within the
      buffer, the stride, and the per-element start offset inside the slice. */
  datatype Layout = Layout(start: nat, stride: nat, length: nat, elementOffset: nat)

  /** What `loadAcessor` returns: the slice, the stride and the element offset. */
  datatype Resolved = Resolved(data: seq<byte>, stride: nat, elementOffset: nat)

  datatype RequestError = NoBufferViews | DataNotLoaded

  /** Tightly packed data: no stride, or a stride equal to one element. */
  predicate IsPacked(a: Accessor, v: BufferView) {
    v.byteStride.None? || v.byteStride.value == ElementSize(a)
  }

  /** The stride between consecutive elements as the glTF 2.0 specification
      defines it (section 3.6.2.4): the buffer view's stride when it has one,
      the element size otherwise. */
  function EffectiveStride(a: Accessor, v: BufferView): nat {
    if v.byteStride.Some? then v.byteStride.value else ElementSize(a)
  }

  /** Position in the buffer of the first byte of element `i`, by the same
      section of the glTF 2.0 specification. */
  function ElementAddress(a: Accessor, v: BufferView, i: nat): nat {
    v.byteOffset + a.byteOffset + i * EffectiveStride(a, v)
  }

  /** Position inside the slice where a consumer reads byte `k` of element `i`. */
  function ReadPosition(l: Layout, i: nat, k: nat): nat {
    l.elementOffset + i * l.stride + k
  }

  /** Every byte of every element lies inside the returned slice. */
  ghost predicate CoversElements(a: Accessor, l: Layout) {
    Covers(l, a.count, ElementSize(a))
  }

  /** Bytes `0 .. size` of elements `0 .. count` all lie inside the slice. */
  ghost predicate Covers(l: Layout, count: nat, size: nat) {
    forall i: nat, k: nat {:trigger ReadPosition(l, i, k)} ::
      i < count && k < size ==> ReadPosition(l, i, k) < l.length
  }

  /** The arithmetic of `loadAcessor`. In both branches the consumer ends up
      at the byte the glTF specification assigns to each element. */
  function Resolve(a: Accessor, v: BufferView): (l: Layout)
    ensures l.stride == EffectiveStride(a, v)
    ensures l.length == l.stride * a.count
    ensures IsPacked(a, v) ==> l.start == v.byteOffset + a.byteOffset && l.elementOffset == 0
    ensures !IsPacked(a, v) ==> l.start == v.byteOffset && l.elementOffset == a.byteOffset
    ensures forall i: nat {:trigger ElementAddress(a, v, i)} ::
      l.start + ReadPosition(l, i, 0) == ElementAddress(a, v, i)
  {
    var addAccessorOffset := v.byteStride.None? || ElementSize(a) == v.byteStride.value;
    var byteStride := if v.byteStride.None? then ElementSize(a) else v.byteStride.value;
    var bytesLength := byteStride * a.count;
    var start := v.byteOffset + (if addAccessorOffset then a.byteOffset else 0);
    var byteOffset := if !addAccessorOffset then a.byteOffset else 0;
    Layout(start, byteStride, bytesLength, byteOffset)
  }

  lemma MulStep(n: nat, s: nat)
    requires n > 0
    ensures (n - 1) * s + s == n * s
  {
  }

  lemma MulMono(i: nat, j: nat, s: nat)
    requires i <= j
    ensures i * s <= j * s
  {
  }

  /** For a slice of `count` strides, every element fits exactly when the
      first one fits within one stride. */
  lemma LayoutCoverage(l: Layout, count: nat, size: nat)
    requires size > 0 && l.length == l.stride * count
    ensures Covers(l, count, size) <==> count == 0 || l.elementOffset + size <= l.stride
  {
    if count > 0 {
      MulStep(count, l.stride);
      if l.elementOffset + size <= l.stride {
        forall i: nat, k: nat | i < count && k < size
          ensures ReadPosition(l, i, k) < l.length
        {
          MulMono(i, count - 1, l.stride);
        }
      } else {
        assert ReadPosition(l, count - 1, size - 1) >= l.length;
      }
    }
  }

  /** The slice holds every element exactly when the first element's bytes fit
      within one stride; tightly packed data always qualifies. Interleaved data
      whose accessor offset reaches past the first stride does not. */
  lemma CoverageIff(a: Accessor, v: BufferView)
    ensures var l := Resolve(a, v);
      CoversElements(a, l) <==> a.count == 0 || l.elementOffset + ElementSize(a) <= l.stride
    ensures IsPacked(a, v) ==> CoversElements(a, Resolve(a, v))
  {
    LayoutCoverage(Resolve(a, v), a.count, ElementSize(a));
  }

  /** Indices `requestData` needs: with buffer views present, the view and
      its buffer must exist (the source indexes and force-unwraps them). */
  predicate RequestOk(doc: Document, viewIndex: nat) {
    doc.bufferViews.Some? ==>
      && viewIndex < |doc.bufferViews.value|
      && doc.buffers.Some?
      && doc.bufferViews.value[viewIndex].buffer < |doc.buffers.value|
  }

  /** `requestData`: the buffer view and the loader's payload for its buffer. */
  function RequestData(doc: Document, viewIndex: nat): (r: Result<(BufferView, seq<byte>), RequestError>)
    requires RequestOk(doc, viewIndex)
    ensures doc.bufferViews.None? ==> r == Failure(NoBufferViews)
    ensures r.Success? ==>
      && doc.bufferViews.Some?
      && r.value.0 == doc.bufferViews.value[viewIndex]
      && doc.buffers.value[r.value.0.buffer].data == Some(r.value.1)
    ensures r.Failure? && doc.bufferViews.Some? ==>
      r.error == DataNotLoaded && doc.buffers.value[doc.bufferViews.value[viewIndex].buffer].data.None?
  {
    match doc.bufferViews
    case None => Failure(NoBufferViews)
    case Some(views) =>
      var view := views[viewIndex];
      var buffer := doc.buffers.value[view.buffer];
      match buffer.data
      case Some(data) => Success((view, data))
      case None => Failure(DataNotLoaded)
  }

  /** What `loadAcessor` needs of its accessor beyond what it checks itself:
      the indices it follows exist, and the slice it cuts lies inside the
      loaded payload (`subdata(in:)` would trap otherwise). */
  predicate AccessorOk(doc: Document, a: Accessor) {
    a.bufferView.Some? ==>
      && RequestOk(doc, a.bufferView.value)
      && (RequestData(doc, a.bufferView.value).Success? ==>
            var (v, data) := RequestData(doc, a.bufferView.value).value;
            Resolve(a, v).start + Resolve(a, v).length <= |data|)
  }

  /** `loadAcessor`: nothing without a buffer view or without loaded data;
      otherwise the slice, stride and element offset of `Resolve`. */
  function LoadAccessor(doc: Document, a: Accessor): (r: Option<Resolved>)
    requires AccessorOk(doc, a)
    ensures a.bufferView.None? ==> r.None?
    ensures r.Some? <==> a.bufferView.Some? && RequestData(doc, a.bufferView.value).Success?
    ensures r.Some? ==>
      var (v, payload) := RequestData(doc, a.bufferView.value).value;
      var l := Resolve(a, v);
      && r.value.stride == EffectiveStride(a, v)
      && r.value.elementOffset == l.elementOffset
      && |r.value.data| == r.value.stride * a.count
      && forall p :: 0 <= p < |r.value.data| ==> r.value.data[p] == payload[l.start + p]
  {
    if a.bufferView.None? then None
    else
      match RequestData(doc, a.bufferView.value)
      case Failure(_) => None
      case Success((v, data)) =>
        var l := Resolve(a, v);
        var end := l.start + l.length;
        var subdata := if l.start != 0 || end != |data| then data[l.start..end] else data;
        Some(Resolved(subdata, l.stride, l.elementOffset))
  }

  /** The renderer, reading byte `k` of element `i` at `elementOffset + i * stride + k`
      of the slice, reads the byte the glTF specification places there, in the
      packed and in the interleaved branch alike. */
  lemma {:induction false} ReadsSpecifiedBytes(doc: Document, a: Accessor, i: nat, k: nat)
    requires AccessorOk(doc, a)
    requires LoadAccessor(doc, a).Some?
    requires i < a.count && k < ElementSize(a)
    requires var r := LoadAccessor(doc, a).value;
      r.elementOffset + ElementSize(a) <= r.stride || IsPacked(a, RequestData(doc, a.bufferView.value).value.0)
    ensures var r := LoadAccessor(doc, a).value;
      var (v, payload) := RequestData(doc, a.bufferView.value).value;
      && r.elementOffset + i * r.stride + k < |r.data|
      && ElementAddress(a, v, i) + k < |payload|
      && r.data[r.elementOffset + i * r.stride + k] == payload[ElementAddress(a, v, i) + k]
  {
    var r := LoadAccessor(doc, a).value;
    var (v, payload) := RequestData(doc, a.bufferView.value).value;
    var l := Resolve(a, v);
    CoverageIff(a, v);
    assert ReadPosition(l, i, k) < l.length;
    assert l.start + ReadPosition(l, i, 0) == ElementAddress(a, v, i);
  }

  /** A VEC3 float accessor of three elements at offset 12 in an unstrided
      view: stride 12, no element offset, slice from the view offset plus 12,
      36 bytes long. */
  lemma PackedVec3Example(viewOffset: nat, viewLength: nat, buffer: nat)
    ensures var a := Accessor(Some(0), 12, Float, Vec3, 3);
      var l := Resolve(a, BufferView(buffer, viewOffset, viewLength, None));
      l == Layout(viewOffset + 12, 12, 36, 0)
  {
  }

  /** The same accessor in an interleaved view of stride 32 keeps its offset
      12 as the element offset and starts the slice at the view. */
  lemma InterleavedVec3Example(viewOffset: nat, viewLength: nat, buffer: nat)
    ensures var a := Accessor(Some(0), 12, Float, Vec3, 3);
      var l := Resolve(a, BufferView(buffer, viewOffset, viewLength, Some(32)));
      l == Layout(viewOffset, 32, 96, 12)
  {
  }
}

=== FILE: nodes.dfy ===
/** Recursive node-tree construction (`buildNode`): geometry, weight paths,
    registration in the node cache, and the cancellation rule: a node that
    sees the flag set after its geometry is returned as it is, is not cached,
    and its children are not visited. Camera projections, skins and the
    baked transform are not modelled beyond recording which camera and skin
    the node references. */
module NodeBuilder {
  import opened Wrappers
  import opened Gltf
  import opened Cancellation
  import opened Geometry
  import opened WeightPaths

  /** The output node: the glTF node it was built from (none for the empty
      node built when the node array is absent), and what was attached. */
  datatype SceneNode = SceneNode(
    source: Option<nat>,
    name: Option<string>,
    camera: Option<nat>,
    primitives: seq<PrimitiveNode>,
    weightPaths: seq<string>,
    skin: Option<nat>,
    children: seq<SceneNode>)

  /** A write of node `node` into the cache, made right after the flag read
      numbered `tick` came back clear. */
  datatype Write = Write(node: nat, tick: nat)

  /** The node cache (`cache_nodes`), the number of flag reads so far, and
      the log of the cache writes made so far. The log is not a variable of
      the program: it records when each write happened, so that contracts
      can say which writes cancellation prevents. */
  datatype BuildState = BuildState(cache: seq<Option<SceneNode>>, tick: nat, writes: seq<Write>)

  function Kids(n: Node): seq<nat> {
    if n.children.Some? then n.children.value else []
  }

  /** Every listed child exists and ranks below `bound`. */
  predicate ChildrenBelow(nodes: seq<Node>, rank: seq<nat>, children: seq<nat>, bound: nat) {
    forall k :: 0 <= k < |children| ==>
      children[k] < |nodes| && children[k] < |rank| && rank[children[k]] < bound
  }

  /** `rank` witnesses that the node hierarchy has no cycle, as the glTF 2.0
      specification requires (section 3.5.2): children rank below parents. */
  predicate Ranked(nodes: seq<Node>, rank: seq<nat>) {
    && |rank| == |nodes|
    && forall i :: 0 <= i < |nodes| ==> ChildrenBelow(nodes, rank, Kids(nodes[i]), rank[i])
  }

  /** The node hierarchy can be built: it is acyclic, every child index and
      every mesh reference is usable. */
  predicate TreeOk(doc: Document, rank: seq<nat>) {
    doc.nodes.Some? ==>
      && Ranked(doc.nodes.value, rank)
      && forall i :: 0 <= i < |doc.nodes.value| ==> MeshRefOk(doc, doc.nodes.value[i])
  }

  /** Node `i` and all its descendants. */
  ghost function Subtree(nodes: seq<Node>, rank: seq<nat>, i: nat): set<nat>
    requires Ranked(nodes, rank) && i < |nodes|
    decreases rank[i], 1
  {
    {i} + Forest(nodes, rank, Kids(nodes[i]), rank[i])
  }

  ghost function Forest(nodes: seq<Node>, rank: seq<nat>, children: seq<nat>, bound: nat): set<nat>
    requires Ranked(nodes, rank) && ChildrenBelow(nodes, rank, children, bound)
    decreases bound, 0, |children|
  {
    if |children| == 0 then {}
    else Subtree(nodes, rank, children[0]) + Forest(nodes, rank, children[1..], bound)
  }

  /** Target counts of the primitive children's morphers. */
  function MorphCounts(primitives: seq<PrimitiveNode>): (m: seq<Option<nat>>)
    ensures |m| == |primitives|
  {
    seq(|primitives|, i requires 0 <= i < |primitives| =>
      if primitives[i].morpher.Some? then Some(|primitives[i].morpher.value.targets|) else None)
  }

  /** The node before its children are attached: name, camera and skin
      references, the primitive children and their weight paths. */
  function Shell(i: nat, node: Node, primitives: seq<PrimitiveNode>): (r: SceneNode)
    ensures r.source == Some(i) && r.name == node.name && r.children == []
    ensures r.camera == node.camera && r.skin == node.skin
    ensures r.primitives == primitives
    ensures r.weightPaths == PathStrings(MorphCounts(primitives))
  {
    SceneNode(Some(i), node.name, node.camera, primitives, PathStrings(MorphCounts(primitives)), node.skin, [])
  }

  /** Reference definition of the tree a node stands for when nothing is
      cancelled: its primitive children, and each glTF child in order. */
  function PureNode(doc: Document, i: nat, codec: DracoExtension -> DracoResult, ghost rank: seq<nat>): SceneNode
    requires TreeOk(doc, rank) && doc.nodes.Some? && i < |doc.nodes.value|
    decreases rank[i], 1
  {
    var node := doc.nodes.value[i];
    Shell(i, node, MeshNodes(doc, node, codec)).(children := PureChildren(doc, Kids(node), codec, rank, rank[i]))
  }

  function PureChildren(doc: Document, children: seq<nat>, codec: DracoExtension -> DracoResult,
                        ghost rank: seq<nat>, ghost bound: nat): (r: seq<SceneNode>)
    requires TreeOk(doc, rank) && doc.nodes.Some?
    requires ChildrenBelow(doc.nodes.value, rank, children, bound)
    ensures |r| == |children|
    decreases bound, 0, |children|
  {
    if |children| == 0 then []
    else [PureNode(doc, children[0], codec, rank)] + PureChildren(doc, children[1..], codec, rank, bound)
  }

  /** The number of flag reads an uninterrupted build of node `i` makes:
      one on entering `geometryNode`, one per primitive, one before the
      children are visited, and those of every child. */
  function NodeReads(doc: Document, i: nat, ghost rank: seq<nat>): nat
    requires TreeOk(doc, rank) && doc.nodes.Some? && i < |doc.nodes.value|
    decreases rank[i], 1
  {
    var node := doc.nodes.value[i];
    2 + |MeshPrimitives(doc, node)| + ForestReads(doc, Kids(node), rank, rank[i])
  }

  function ForestReads(doc: Document, children: seq<nat>, ghost rank: seq<nat>, ghost bound: nat): nat
    requires TreeOk(doc, rank) && doc.nodes.Some?
    requires ChildrenBelow(doc.nodes.value, rank, children, bound)
    decreases bound, 0, |children|
  {
    if |children| == 0 then 0
    else NodeReads(doc, children[0], rank) + ForestReads(doc, children[1..], rank, bound)
  }

  /** What a build of node `i` may return when cancellation cuts it short:
      the node's own fields, a prefix of its primitive children, and either
      no children or one pruning per listed child, in order. A node whose
      primitives were cut short has no children. */
  predicate Pruned(doc: Document, i: nat, n: SceneNode, codec: DracoExtension -> DracoResult, ghost rank: seq<nat>)
    requires TreeOk(doc, rank) && doc.nodes.Some? && i < |doc.nodes.value|
    decreases rank[i], 1
  {
    var node := doc.nodes.value[i];
    var full := MeshNodes(doc, node, codec);
    && |n.primitives| <= |full|
    && (forall k :: 0 <= k < |n.primitives| ==> n.primitives[k] == full[k])
    && n == Shell(i, node, n.primitives).(children := n.children)
    && (|n.primitives| < |full| ==> n.children == [])
    && (n.children == [] || PrunedForest(doc, Kids(node), n.children, codec, rank, rank[i]))
  }

  predicate PrunedForest(doc: Document, children: seq<nat>, ns: seq<SceneNode>,
                         codec: DracoExtension -> DracoResult, ghost rank: seq<nat>, ghost bound: nat)
    requires TreeOk(doc, rank) && doc.nodes.Some?
    requires ChildrenBelow(doc.nodes.value, rank, children, bound)
    decreases bound, 0, |children|
  {
    && |ns| == |children|
    && (|children| > 0 ==>
          && Pruned(doc, children[0], ns[0], codec, rank)
          && PrunedForest(doc, children[1..], ns[1..], codec, rank, bound))
  }

  /** Reference schedule of the cache writes of an uninterrupted build of
      node `i` whose first read is numbered `t`: the node itself after the
      read that follows its geometry, then the writes of its children. */
  function NodeWrites(doc: Document, i: nat, t: nat, ghost rank: seq<nat>): (ws: seq<Write>)
    requires TreeOk(doc, rank) && doc.nodes.Some? && i < |doc.nodes.value|
    ensures |ws| > 0 && ws[0] == Write(i, t + 1 + |MeshPrimitives(doc, doc.nodes.value[i])|)
    ensures forall k :: 0 <= k < |ws| ==>
      t + 1 + |MeshPrimitives(doc, doc.nodes.value[i])| <= ws[k].tick < t + NodeReads(doc, i, rank)
    decreases rank[i], 1
  {
    var node := doc.nodes.value[i];
    var w := t + 1 + |MeshPrimitives(doc, node)|;
    [Write(i, w)] + ForestWrites(doc, Kids(node), w + 1, rank, rank[i])
  }

  function ForestWrites(doc: Document, children: seq<nat>, t: nat, ghost rank: seq<nat>, ghost bound: nat)
    : (ws: seq<Write>)
    requires TreeOk(doc, rank) && doc.nodes.Some?
    requires ChildrenBelow(doc.nodes.value, rank, children, bound)
    ensures forall k :: 0 <= k < |ws| ==> t <= ws[k].tick < t + ForestReads(doc, children, rank, bound)
    decreases bound, 0, |children|
  {
    if |children| == 0 then []
    else
      NodeWrites(doc, children[0], t, rank)
        + ForestWrites(doc, children[1..], t + NodeReads(doc, children[0], rank), rank, bound)
  }

  lemma ForestWritesUnfold(doc: Document, children: seq<nat>, t: nat, rank: seq<nat>, bound: nat)
    requires TreeOk(doc, rank) && doc.nodes.Some? && |children| > 0
    requires ChildrenBelow(doc.nodes.value, rank, children, bound)
    ensures ChildrenBelow(doc.nodes.value, rank, children[1..], bound)
    ensures ForestWrites(doc, children, t, rank, bound)
      == NodeWrites(doc, children[0], t, rank)
           + ForestWrites(doc, children[1..], t + NodeReads(doc, children[0], rank), rank, bound)
  {
    assert ChildrenBelow(doc.nodes.value, rank, children[1..], bound);
  }

  lemma Associative(a: seq<Write>, b: seq<Write>, c: seq<Write>)
    ensures (a + b) + c == a + (b + c)
  {
  }

  /** The writes of `ws` whose read does not see the flag, in order. */
  function BeforeFlag(ws: seq<Write>, cancel: Cancel): (r: seq<Write>)
    ensures |r| <= |ws|
    ensures forall k :: 0 <= k < |r| ==> !Canceled(cancel, r[k].tick)
  {
    if |ws| == 0 then []
    else if Canceled(cancel, ws[0].tick) then BeforeFlag(ws[1..], cancel)
    else [ws[0]] + BeforeFlag(ws[1..], cancel)
  }

  lemma {:induction false} BeforeFlagAppend(a: seq<Write>, b: seq<Write>, cancel: Cancel)
    ensures BeforeFlag(a + b, cancel) == BeforeFlag(a, cancel) + BeforeFlag(b, cancel)
    decreases |a|
  {
    if |a| > 0 {
      assert (a + b)[0] == a[0];
      assert (a + b)[1..] == a[1..] + b;
      BeforeFlagAppend(a[1..], b, cancel);
    } else {
      assert a + b == b;
    }
  }

  /** A write whose read is clear stays at the head of the filtered log. */
  lemma BeforeFlagKeep(all: seq<Write>, w: Write, ws: seq<Write>, cancel: Cancel)
    requires all == [w] + ws && !Canceled(cancel, w.tick)
    ensures BeforeFlag(all, cancel) == [w] + BeforeFlag(ws, cancel)
  {
    assert all[0] == w;
    assert all[1..] == ws;
  }

  /** Writes all scheduled at or after a read that sees the flag never happen. */
  lemma {:induction false} BeforeFlagNone(ws: seq<Write>, cancel: Cancel, n: nat)
    requires Canceled(cancel, n)
    requires forall k :: 0 <= k < |ws| ==> n <= ws[k].tick
    ensures BeforeFlag(ws, cancel) == []
    decreases |ws|
  {
    if |ws| > 0 {
      BeforeFlagNone(ws[1..], cancel, n);
    }
  }

  /** The nodes a list of writes writes. */
  function WrittenNodes(ws: seq<Write>): set<nat> {
    set k | 0 <= k < |ws| :: ws[k].node
  }

  /** Every node of `s` is cached as its reference tree. */
  predicate CachedPure(doc: Document, codec: DracoExtension -> DracoResult, ghost rank: seq<nat>,
                       c: seq<Option<SceneNode>>, s: set<nat>)
    requires TreeOk(doc, rank) && doc.nodes.Some?
  {
    && |c| == |doc.nodes.value|
    && forall j :: j in s ==> j < |c| && c[j] == Some(PureNode(doc, j, codec, rank))
  }

  /** A cache entry written for node `j`: a pruning of that node. */
  predicate Entry(doc: Document, codec: DracoExtension -> DracoResult, ghost rank: seq<nat>,
                  j: nat, e: Option<SceneNode>)
    requires TreeOk(doc, rank) && doc.nodes.Some? && j < |doc.nodes.value|
  {
    e.Some? && Pruned(doc, j, e.value, codec, rank)
  }

  /** The cache went from `c0` to `c1` by the writes `ws`: every entry that
      changed holds a pruning of its own node and is one `ws` writes, and
      every node `ws` writes is filled. */
  predicate Follows(doc: Document, codec: DracoExtension -> DracoResult, ghost rank: seq<nat>,
                    c0: seq<Option<SceneNode>>, c1: seq<Option<SceneNode>>, ws: seq<Write>)
    requires TreeOk(doc, rank) && doc.nodes.Some?
  {
    && |c0| == |c1| == |doc.nodes.value|
    && (forall j :: 0 <= j < |c0| && c1[j] != c0[j] ==> Entry(doc, codec, rank, j, c1[j]) && j in WrittenNodes(ws))
    && (forall k :: 0 <= k < |ws| ==> ws[k].node < |c1| && c1[ws[k].node].Some?)
  }

  lemma WrittenAppend(a: seq<Write>, b: seq<Write>)
    ensures WrittenNodes(a + b) == WrittenNodes(a) + WrittenNodes(b)
  {
    var ab := a + b;
    forall j | j in WrittenNodes(ab)
      ensures j in WrittenNodes(a) + WrittenNodes(b)
    {
      var k :| 0 <= k < |ab| && ab[k].node == j;
      if k >= |a| {
        assert b[k - |a|].node == j;
      }
    }
    forall j | j in WrittenNodes(a) + WrittenNodes(b)
      ensures j in WrittenNodes(ab)
    {
      if j in WrittenNodes(a) {
        var k :| 0 <= k < |a| && a[k].node == j;
        assert ab[k].node == j;
      } else {
        var k :| 0 <= k < |b| && b[k].node == j;
        assert ab[|a| + k].node == j;
      }
    }
  }

  /** A cache that started empty and went through the writes `ws` holds an
      entry exactly for the nodes `ws` writes, each a pruning of its node. */
  lemma FollowsFromEmpty(doc: Document, codec: DracoExtension -> DracoResult, rank: seq<nat>,
                         c0: seq<Option<SceneNode>>, c1: seq<Option<SceneNode>>, ws: seq<Write>)
    requires TreeOk(doc, rank) && doc.nodes.Some?
    requires forall j :: 0 <= j < |c0| ==> c0[j].None?
    requires Follows(doc, codec, rank, c0, c1, ws)
    ensures forall j :: 0 <= j < |c1| ==> (c1[j].Some? <==> j in WrittenNodes(ws))
    ensures forall j :: 0 <= j < |c1| && c1[j].Some? ==> Pruned(doc, j, c1[j].value, codec, rank)
  {
  }

  /** Two stretches of writes, one after the other. */
  lemma FollowsChain(doc: Document, codec: DracoExtension -> DracoResult, rank: seq<nat>,
                     c0: seq<Option<SceneNode>>, c1: seq<Option<SceneNode>>, c2: seq<Option<SceneNode>>,
                     w1: seq<Write>, w2: seq<Write>)
    requires TreeOk(doc, rank) && doc.nodes.Some?
    requires Follows(doc, codec, rank, c0, c1, w1) && Follows(doc, codec, rank, c1, c2, w2)
    ensures Follows(doc, codec, rank, c0, c2, w1 + w2)
  {
    WrittenAppend(w1, w2);
    var ws := w1 + w2;
    forall k | 0 <= k < |ws|
      ensures ws[k].node < |c2| && c2[ws[k].node].Some?
    {
      if k >= |w1| {
        assert ws[k] == w2[k - |w1|];
      } else {
        assert ws[k] == w1[k];
      }
    }
  }

  /** Registering node `i`, whose write comes first in the log. */
  lemma FollowsRegister(doc: Document, codec: DracoExtension -> DracoResult, rank: seq<nat>,
                        c0: seq<Option<SceneNode>>, c1: seq<Option<SceneNode>>, ws: seq<Write>,
                        i: nat, t: nat, full: SceneNode)
    requires TreeOk(doc, rank) && doc.nodes.Some? && i < |doc.nodes.value|
    requires Follows(doc, codec, rank, c0, c1, ws) && Pruned(doc, i, full, codec, rank)
    ensures Follows(doc, codec, rank, c0, c1[i := Some(full)], [Write(i, t)] + ws)
  {
    WrittenAppend([Write(i, t)], ws);
    assert WrittenNodes([Write(i, t)]) == {i} by {
      assert [Write(i, t)][0].node == i;
    }
    var all := [Write(i, t)] + ws;
    var c2 := c1[i := Some(full)];
    assert Entry(doc, codec, rank, i, Some(full));
    forall k | 0 <= k < |all|
      ensures all[k].node < |c2| && c2[all[k].node].Some?
    {
      if k > 0 {
        assert all[k] == ws[k - 1];
      }
    }
  }

  /** Registering node `i` after its children: every cache entry that
      changed is filled and lies in the subtree of `i`. */
  lemma RegisterKeepsChanges(nodes: seq<Node>, rank: seq<nat>, i: nat,
                             c0: seq<Option<SceneNode>>, c1: seq<Option<SceneNode>>, full: SceneNode)
    requires Ranked(nodes, rank) && i < |nodes| && i < |c1| == |c0|
    requires forall j :: 0 <= j < |c0| && c1[j] != c0[j] ==>
      c1[j].Some? && j in Forest(nodes, rank, Kids(nodes[i]), rank[i])
    ensures forall j :: 0 <= j < |c0| && c1[i := Some(full)][j] != c0[j] ==>
      c1[i := Some(full)][j].Some? && j in Subtree(nodes, rank, i)
  {
    assert Subtree(nodes, rank, i) == {i} + Forest(nodes, rank, Kids(nodes[i]), rank[i]);
  }

  /** Registering the reference tree of node `i` after its children's
      reference trees are cached caches the whole subtree as reference trees. */
  lemma RegisterCoversSubtree(doc: Document, codec: DracoExtension -> DracoResult, rank: seq<nat>, i: nat,
                              c1: seq<Option<SceneNode>>)
    requires TreeOk(doc, rank) && doc.nodes.Some? && i < |doc.nodes.value|
    requires CachedPure(doc, codec, rank, c1, Forest(doc.nodes.value, rank, Kids(doc.nodes.value[i]), rank[i]))
    ensures CachedPure(doc, codec, rank, c1[i := Some(PureNode(doc, i, codec, rank))],
                       Subtree(doc.nodes.value, rank, i))
  {
    assert Subtree(doc.nodes.value, rank, i)
      == {i} + Forest(doc.nodes.value, rank, Kids(doc.nodes.value[i]), rank[i]);
  }

  /** Building the first child and then the rest changes only entries of
      the whole forest, and only to filled ones. */
  lemma ChainChanges(nodes: seq<Node>, rank: seq<nat>, children: seq<nat>, bound: nat,
                     c0: seq<Option<SceneNode>>, c1: seq<Option<SceneNode>>, c2: seq<Option<SceneNode>>)
    requires Ranked(nodes, rank) && |children| > 0
    requires ChildrenBelow(nodes, rank, children, bound) && ChildrenBelow(nodes, rank, children[1..], bound)
    requires |c0| == |c1| == |c2|
    requires forall j :: 0 <= j < |c0| && c1[j] != c0[j] ==>
      c1[j].Some? && j in Subtree(nodes, rank, children[0])
    requires forall j :: 0 <= j < |c1| && c2[j] != c1[j] ==>
      c2[j].Some? && j in Forest(nodes, rank, children[1..], bound)
    ensures forall j :: 0 <= j < |c0| && c2[j] != c0[j] ==>
      c2[j].Some? && j in Forest(nodes, rank, children, bound)
  {
    assert Forest(nodes, rank, children, bound)
      == Subtree(nodes, rank, children[0]) + Forest(nodes, rank, children[1..], bound);
  }

  /** When the first child's subtree holds reference trees, the rest of the
      list only changes entries of its own forest, and leaves that forest
      holding reference trees, the whole forest holds reference trees. */
  lemma ChainCoverage(doc: Document, codec: DracoExtension -> DracoResult, rank: seq<nat>,
                      children: seq<nat>, bound: nat, c1: seq<Option<SceneNode>>, c2: seq<Option<SceneNode>>)
    requires TreeOk(doc, rank) && doc.nodes.Some? && |children| > 0
    requires ChildrenBelow(doc.nodes.value, rank, children, bound)
    requires ChildrenBelow(doc.nodes.value, rank, children[1..], bound)
    requires |c1| == |c2|
    requires CachedPure(doc, codec, rank, c1, Subtree(doc.nodes.value, rank, children[0]))
    requires forall j :: 0 <= j < |c1| && c2[j] != c1[j] ==> j in Forest(doc.nodes.value, rank, children[1..], bound)
    requires CachedPure(doc, codec, rank, c2, Forest(doc.nodes.value, rank, children[1..], bound))
    ensures CachedPure(doc, codec, rank, c2, Forest(doc.nodes.value, rank, children, bound))
  {
    assert Forest(doc.nodes.value, rank, children, bound)
      == Subtree(doc.nodes.value, rank, children[0]) + Forest(doc.nodes.value, rank, children[1..], bound);
  }

  /** A node assembled from a prefix of its primitive children and, unless
      the primitives were cut short, a pruning of its children list, is a
      pruning of the node. */
  lemma PrunedStep(doc: Document, i: nat, prims: seq<PrimitiveNode>, children: seq<SceneNode>,
                   codec: DracoExtension -> DracoResult, rank: seq<nat>)
    requires TreeOk(doc, rank) && doc.nodes.Some? && i < |doc.nodes.value|
    requires |prims| <= |MeshNodes(doc, doc.nodes.value[i], codec)|
    requires forall k :: 0 <= k < |prims| ==> prims[k] == MeshNodes(doc, doc.nodes.value[i], codec)[k]
    requires |prims| < |MeshNodes(doc, doc.nodes.value[i], codec)| ==> children == []
    requires children == [] ||
      (ChildrenBelow(doc.nodes.value, rank, Kids(doc.nodes.value[i]), rank[i]) &&
       PrunedForest(doc, Kids(doc.nodes.value[i]), children, codec, rank, rank[i]))
    ensures Pruned(doc, i, Shell(i, doc.nodes.value[i], prims).(children := children), codec, rank)
  {
  }

  /** A pruning of the first child followed by a pruning of the rest is a
      pruning of the whole list. */
  lemma PrunedForestStep(doc: Document, children: seq<nat>, first: SceneNode, rest: seq<SceneNode>,
                         codec: DracoExtension -> DracoResult, rank: seq<nat>, bound: nat)
    requires TreeOk(doc, rank) && doc.nodes.Some? && |children| > 0
    requires ChildrenBelow(doc.nodes.value, rank, children, bound)
    requires ChildrenBelow(doc.nodes.value, rank, children[1..], bound)
    requires Pruned(doc, children[0], first, codec, rank)
    requires PrunedForest(doc, children[1..], rest, codec, rank, bound)
    ensures PrunedForest(doc, children, [first] + rest, codec, rank, bound)
  {
    assert ([first] + rest)[0] == first && ([first] + rest)[1..] == rest;
  }

  /** Children built one after the other keep their identities. */
  lemma SourcesStep(children: seq<nat>, first: SceneNode, rest: seq<SceneNode>)
    requires |children| > 0 && |rest| == |children| - 1
    requires first.source == Some(children[0])
    requires forall k :: 0 <= k < |rest| ==> rest[k].source == Some(children[1..][k])
    ensures forall k :: 0 <= k < |children| ==> ([first] + rest)[k].source == Some(children[k])
  {
  }

  /** Children built after the flag is seen are bare nodes. */
  lemma BareStep(nodes: seq<Node>, children: seq<nat>, first: SceneNode, rest: seq<SceneNode>)
    requires |children| > 0 && |rest| == |children| - 1
    requires forall k :: 0 <= k < |children| ==> children[k] < |nodes|
    requires first == Shell(children[0], nodes[children[0]], [])
    requires forall k :: 0 <= k < |rest| ==> rest[k] == Shell(children[1..][k], nodes[children[1..][k]], [])
    ensures forall k :: 0 <= k < |children| ==> ([first] + rest)[k] == Shell(children[k], nodes[children[k]], [])
  {
  }

  /** Combining the first child's build with the rest of the list: the read
      counts add up, a list whose first build starts after the flag is all
      bare nodes and writes nothing, and a list in which no read sees the
      flag is the reference forest, cached as reference trees. The
      contracts of the two recursive calls come in as plain facts about
      `first`, `st1`, `rest` and `st2`; keeping this step out of
      `BuildChildren` keeps that function's proof within the solver's
      budget. */
  lemma ChildrenStep(doc: Document, children: seq<nat>, cancel: Cancel, codec: DracoExtension -> DracoResult,
                     rank: seq<nat>, bound: nat, st: BuildState, first: SceneNode, st1: BuildState,
                     rest: seq<SceneNode>, st2: BuildState)
    requires TreeOk(doc, rank) && doc.nodes.Some? && |children| > 0
    requires ChildrenBelow(doc.nodes.value, rank, children, bound)
    requires ChildrenBelow(doc.nodes.value, rank, children[1..], bound)
    requires |st1.cache| == |st2.cache| && |rest| == |children| - 1
    requires st.tick + 2 <= st1.tick <= st.tick + NodeReads(doc, children[0], rank)
    requires Canceled(cancel, st.tick) ==>
      first == Shell(children[0], doc.nodes.value[children[0]], []) && st1 == st.(tick := st.tick + 2)
    requires Unseen(cancel, st1.tick) ==>
      && first == PureNode(doc, children[0], codec, rank)
      && st1.tick == st.tick + NodeReads(doc, children[0], rank)
      && CachedPure(doc, codec, rank, st1.cache, Subtree(doc.nodes.value, rank, children[0]))
    requires st1.tick + 2 * |rest| <= st2.tick <= st1.tick + ForestReads(doc, children[1..], rank, bound)
    requires Canceled(cancel, st1.tick) ==>
      && st2 == st1.(tick := st1.tick + 2 * |rest|)
      && forall k :: 0 <= k < |rest| ==> rest[k] == Shell(children[1..][k], doc.nodes.value[children[1..][k]], [])
    requires Unseen(cancel, st2.tick) ==>
      && rest == PureChildren(doc, children[1..], codec, rank, bound)
      && st2.tick == st1.tick + ForestReads(doc, children[1..], rank, bound)
      && CachedPure(doc, codec, rank, st2.cache, Forest(doc.nodes.value, rank, children[1..], bound))
    requires forall j :: 0 <= j < |st1.cache| && st2.cache[j] != st1.cache[j] ==>
      j in Forest(doc.nodes.value, rank, children[1..], bound)
    ensures st.tick + 2 * |children| <= st2.tick <= st.tick + ForestReads(doc, children, rank, bound)
    ensures Canceled(cancel, st.tick) ==>
      && st2 == st.(tick := st.tick + 2 * |children|)
      && forall k :: 0 <= k < |children| ==>
           ([first] + rest)[k] == Shell(children[k], doc.nodes.value[children[k]], [])
    ensures Unseen(cancel, st2.tick) ==>
      && [first] + rest == PureChildren(doc, children, codec, rank, bound)
      && st2.tick == st.tick + ForestReads(doc, children, rank, bound)
      && CachedPure(doc, codec, rank, st2.cache, Forest(doc.nodes.value, rank, children, bound))
  {
    if Canceled(cancel, st.tick) {
      BareStep(doc.nodes.value, children, first, rest);
    }
    if Unseen(cancel, st2.tick) {
      ChainCoverage(doc, codec, rank, children, bound, st1.cache, st2.cache);
    }
  }

  /** The log of a list is the log of its first child followed by the log
      of the rest: the rest's schedule starts where the first child's
      uninterrupted build would end, which is where its actual build ends
      unless a read saw the flag, and then nothing after it is written. */
  lemma WritesStep(doc: Document, children: seq<nat>, cancel: Cancel, codec: DracoExtension -> DracoResult,
                   rank: seq<nat>, bound: nat, st: BuildState, st1: BuildState, st2: BuildState)
    requires TreeOk(doc, rank) && doc.nodes.Some? && |children| > 0
    requires ChildrenBelow(doc.nodes.value, rank, children, bound)
    requires ChildrenBelow(doc.nodes.value, rank, children[1..], bound)
    requires st1.tick <= st.tick + NodeReads(doc, children[0], rank)
    requires Unseen(cancel, st1.tick) ==> st1.tick == st.tick + NodeReads(doc, children[0], rank)
    requires st1.writes == st.writes + BeforeFlag(NodeWrites(doc, children[0], st.tick, rank), cancel)
    requires Follows(doc, codec, rank, st.cache, st1.cache,
                     BeforeFlag(NodeWrites(doc, children[0], st.tick, rank), cancel))
    requires st2.writes == st1.writes + BeforeFlag(ForestWrites(doc, children[1..], st1.tick, rank, bound), cancel)
    requires Follows(doc, codec, rank, st1.cache, st2.cache,
                     BeforeFlag(ForestWrites(doc, children[1..], st1.tick, rank, bound), cancel))
    ensures st2.writes == st.writes + BeforeFlag(ForestWrites(doc, children, st.tick, rank, bound), cancel)
    ensures Follows(doc, codec, rank, st.cache, st2.cache,
                    BeforeFlag(ForestWrites(doc, children, st.tick, rank, bound), cancel))
  {
    var nw := NodeWrites(doc, children[0], st.tick, rank);
    var actual := ForestWrites(doc, children[1..], st1.tick, rank, bound);
    ScheduleStep(doc, children, cancel, rank, bound, st.tick, st1.tick);
    assert st2.writes == st.writes + BeforeFlag(ForestWrites(doc, children, st.tick, rank, bound), cancel) by {
      Associative(st.writes, BeforeFlag(nw, cancel), BeforeFlag(actual, cancel));
    }
    FollowsChain(doc, codec, rank, st.cache, st1.cache, st2.cache,
                 BeforeFlag(nw, cancel), BeforeFlag(actual, cancel));
  }

  /** The writes of a list that happen are those of its first child that
      happen, followed by those of the rest scheduled from the read where
      the first child's build actually ended. */
  lemma ScheduleStep(doc: Document, children: seq<nat>, cancel: Cancel, rank: seq<nat>, bound: nat,
                     t: nat, t1: nat)
    requires TreeOk(doc, rank) && doc.nodes.Some? && |children| > 0
    requires ChildrenBelow(doc.nodes.value, rank, children, bound)
    requires t1 <= t + NodeReads(doc, children[0], rank)
    requires Unseen(cancel, t1) ==> t1 == t + NodeReads(doc, children[0], rank)
    ensures ChildrenBelow(doc.nodes.value, rank, children[1..], bound)
    ensures BeforeFlag(ForestWrites(doc, children, t, rank, bound), cancel)
      == BeforeFlag(NodeWrites(doc, children[0], t, rank), cancel)
           + BeforeFlag(ForestWrites(doc, children[1..], t1, rank, bound), cancel)
  {
    assert ChildrenBelow(doc.nodes.value, rank, children[1..], bound);
    var nw := NodeWrites(doc, children[0], t, rank);
    var later := ForestWrites(doc, children[1..], t + NodeReads(doc, children[0], rank), rank, bound);
    var actual := ForestWrites(doc, children[1..], t1, rank, bound);
    ScheduleSplit(nw, later, actual, cancel, t1);
    assert ForestWrites(doc, children, t, rank, bound) == nw + later by {
      ForestWritesUnfold(doc, children, t, rank, bound);
    }
  }

  /** The schedule `nw + later` against what happens: `nw` as scheduled,
      then `actual` in place of `later`, where the two agree unless a read
      before either of them saw the flag. */
  lemma ScheduleSplit(nw: seq<Write>, later: seq<Write>, actual: seq<Write>, cancel: Cancel, t1: nat)
    requires Unseen(cancel, t1) ==> later == actual
    requires forall k :: 0 <= k < |later| ==> t1 <= later[k].tick
    requires forall k :: 0 <= k < |actual| ==> t1 <= actual[k].tick
    ensures BeforeFlag(nw + later, cancel) == BeforeFlag(nw, cancel) + BeforeFlag(actual, cancel)
  {
    BeforeFlagAppend(nw, later, cancel);
    if !Unseen(cancel, t1) {
      BeforeFlagNone(later, cancel, t1);
      BeforeFlagNone(actual, cancel, t1);
    }
  }

  /** When the read after the geometry is clear, the node's own write
      happens and the log goes on with the children's schedule. */
  lemma NodeWritesClear(doc: Document, i: nat, t: nat, w: nat, cancel: Cancel, rank: seq<nat>)
    requires TreeOk(doc, rank) && doc.nodes.Some? && i < |doc.nodes.value|
    requires w == t + 1 + |MeshPrimitives(doc, doc.nodes.value[i])| && !Canceled(cancel, w)
    requires ChildrenBelow(doc.nodes.value, rank, Kids(doc.nodes.value[i]), rank[i])
    ensures BeforeFlag(NodeWrites(doc, i, t, rank), cancel)
      == [Write(i, w)] + BeforeFlag(ForestWrites(doc, Kids(doc.nodes.value[i]), w + 1, rank, rank[i]), cancel)
  {
    BeforeFlagKeep(NodeWrites(doc, i, t, rank), Write(i, w),
                   ForestWrites(doc, Kids(doc.nodes.value[i]), w + 1, rank, rank[i]), cancel);
  }

  /** A node whose read after the geometry sees the flag logs nothing and
      leaves the cache as it was, and so does its whole reference schedule. */
  lemma NodeWritesQuiet(doc: Document, codec: DracoExtension -> DracoResult, rank: seq<nat>,
                        i: nat, t: nat, cancel: Cancel, st: BuildState)
    requires TreeOk(doc, rank) && doc.nodes.Some? && i < |doc.nodes.value|
    requires |st.cache| == |doc.nodes.value|
    requires Canceled(cancel, t + 1 + |MeshPrimitives(doc, doc.nodes.value[i])|)
    ensures st.writes + BeforeFlag(NodeWrites(doc, i, t, rank), cancel) == st.writes
    ensures Follows(doc, codec, rank, st.cache, st.cache, BeforeFlag(NodeWrites(doc, i, t, rank), cancel))
  {
    BeforeFlagNone(NodeWrites(doc, i, t, rank), cancel, t + 1 + |MeshPrimitives(doc, doc.nodes.value[i])|);
    assert st.writes + [] == st.writes;
  }

  /** The log and the cache changes `Descend` states, rewritten as those of
      the node's reference schedule when the read after the geometry is
      clear. */
  lemma NodeWritesLogged(doc: Document, codec: DracoExtension -> DracoResult, rank: seq<nat>,
                         i: nat, t: nat, w: nat, cancel: Cancel, st: BuildState, r: BuildState)
    requires TreeOk(doc, rank) && doc.nodes.Some? && i < |doc.nodes.value|
    requires w == t + 1 + |MeshPrimitives(doc, doc.nodes.value[i])| && !Canceled(cancel, w)
    requires ChildrenBelow(doc.nodes.value, rank, Kids(doc.nodes.value[i]), rank[i])
    requires r.writes == st.writes + [Write(i, w)]
      + BeforeFlag(ForestWrites(doc, Kids(doc.nodes.value[i]), w + 1, rank, rank[i]), cancel)
    requires Follows(doc, codec, rank, st.cache, r.cache, [Write(i, w)]
      + BeforeFlag(ForestWrites(doc, Kids(doc.nodes.value[i]), w + 1, rank, rank[i]), cancel))
    ensures r.writes == st.writes + BeforeFlag(NodeWrites(doc, i, t, rank), cancel)
    ensures Follows(doc, codec, rank, st.cache, r.cache, BeforeFlag(NodeWrites(doc, i, t, rank), cancel))
  {
    var kids := BeforeFlag(ForestWrites(doc, Kids(doc.nodes.value[i]), w + 1, rank, rank[i]), cancel);
    NodeWritesClear(doc, i, t, w, cancel, rank);
    Associative(st.writes, [Write(i, w)], kids);
  }

  /** `buildNode`. The cache write of the source happens before the children
      are built and stores a reference the children are later added to; the
      model logs the write at that point and stores the finished node once
      the children are built, which is the same value since no descendant is
      the node itself. Whatever read first sees the flag, the result is a
      pruning of the node, the build makes at most the reads of an
      uninterrupted one, and the writes it makes are exactly the writes of
      the reference schedule whose read comes before the flag. A build that
      starts after the flag returns the bare node and writes nothing; a
      build in which no read sees the flag returns the reference tree,
      cached with its subtree. */
  function BuildNode(doc: Document, i: nat, cancel: Cancel, codec: DracoExtension -> DracoResult,
                     st: BuildState, ghost rank: seq<nat>): (r: (SceneNode, BuildState))
    requires TreeOk(doc, rank)
    requires doc.nodes.Some? ==> i < |doc.nodes.value| && |st.cache| == |doc.nodes.value|
    ensures |r.1.cache| == |st.cache|
    ensures doc.nodes.None? ==> r.1 == st && r.0 == SceneNode(None, None, None, [], [], None, [])
    ensures forall j :: 0 <= j < |st.cache| && r.1.cache[j] != st.cache[j] ==>
      r.1.cache[j].Some? && doc.nodes.Some? && j in Subtree(doc.nodes.value, rank, i)
    ensures doc.nodes.Some? && r.1.cache[i] != st.cache[i] ==> r.1.cache[i] == Some(r.0)
    ensures doc.nodes.Some? ==>
      && st.tick + 2 <= r.1.tick <= st.tick + NodeReads(doc, i, rank)
      && Pruned(doc, i, r.0, codec, rank)
    ensures doc.nodes.Some? ==>
      && r.1.writes == st.writes + BeforeFlag(NodeWrites(doc, i, st.tick, rank), cancel)
      && Follows(doc, codec, rank, st.cache, r.1.cache, BeforeFlag(NodeWrites(doc, i, st.tick, rank), cancel))
    ensures doc.nodes.Some? && Canceled(cancel, st.tick) ==>
      r.0 == Shell(i, doc.nodes.value[i], []) && r.1 == st.(tick := st.tick + 2)
    ensures doc.nodes.Some? && Unseen(cancel, r.1.tick) ==>
      && r.0 == PureNode(doc, i, codec, rank)
      && r.1.tick == st.tick + NodeReads(doc, i, rank)
      && r.1.cache[i] == Some(r.0)
      && CachedPure(doc, codec, rank, r.1.cache, Subtree(doc.nodes.value, rank, i))
    decreases if doc.nodes.Some? then rank[i] else 0, 2
  {
    if doc.nodes.None? then (SceneNode(None, None, None, [], [], None, []), st)
    else
      var node := doc.nodes.value[i];
      var (primitives, tick) := GeometryNode(doc, node, cancel, st.tick, codec);
      if Canceled(cancel, tick) then
        PrunedStep(doc, i, primitives, [], codec, rank);
        NodeWritesQuiet(doc, codec, rank, i, st.tick, cancel, st);
        (Shell(i, node, primitives), st.(tick := tick + 1))
      else
        Descend(doc, i, primitives, cancel, codec, st, tick, rank)
  }

  /** The read of the flag right after the geometry decides the rest: when
      it sees the flag the node keeps the primitive children built so far,
      gets no children and is not cached; otherwise it is cached and gets
      one child per listed child. */
  lemma BuildNodeAfterGeometry(doc: Document, i: nat, cancel: Cancel, codec: DracoExtension -> DracoResult,
                               st: BuildState, rank: seq<nat>)
    requires TreeOk(doc, rank)
    requires doc.nodes.Some? ==> i < |doc.nodes.value| && |st.cache| == |doc.nodes.value|
    ensures doc.nodes.Some? ==>
      var r := BuildNode(doc, i, cancel, codec, st, rank);
      var g := GeometryNode(doc, doc.nodes.value[i], cancel, st.tick, codec);
      && r.0 == Shell(i, doc.nodes.value[i], g.0).(children := r.0.children)
      && (Canceled(cancel, g.1) ==> r.1.cache == st.cache && r.0.children == [] && r.1.tick == g.1 + 1)
      && (!Canceled(cancel, g.1) ==>
            r.1.cache[i] == Some(r.0) && |r.0.children| == |Kids(doc.nodes.value[i])|)
  {
  }

  /** The rest of `buildNode` for the node whose build started from `st`,
      once the flag read after its geometry, the read numbered `tick`, has
      not seen the flag: the node is registered in the cache and its
      children are built in order. The node is cached whatever happens to
      the children, and the children are a pruning of the listed ones. */
  function Descend(doc: Document, i: nat, primitives: seq<PrimitiveNode>, cancel: Cancel,
                   codec: DracoExtension -> DracoResult, st: BuildState, tick: nat, ghost rank: seq<nat>)
    : (r: (SceneNode, BuildState))
    requires TreeOk(doc, rank) && doc.nodes.Some?
    requires i < |doc.nodes.value| && |st.cache| == |doc.nodes.value|
    requires primitives == MeshNodes(doc, doc.nodes.value[i], codec)
    requires tick == st.tick + 1 + |MeshPrimitives(doc, doc.nodes.value[i])| && !Canceled(cancel, tick)
    ensures |r.1.cache| == |st.cache|
    ensures forall j :: 0 <= j < |st.cache| && r.1.cache[j] != st.cache[j] ==>
      r.1.cache[j].Some? && j in Subtree(doc.nodes.value, rank, i)
    ensures r.1.cache[i] == Some(r.0)
    ensures r.0 == Shell(i, doc.nodes.value[i], primitives).(children := r.0.children)
    ensures |r.0.children| == |Kids(doc.nodes.value[i])|
    ensures tick + 1 <= r.1.tick <= st.tick + NodeReads(doc, i, rank)
    ensures Pruned(doc, i, r.0, codec, rank)
    ensures r.1.writes == st.writes + BeforeFlag(NodeWrites(doc, i, st.tick, rank), cancel)
    ensures Follows(doc, codec, rank, st.cache, r.1.cache, BeforeFlag(NodeWrites(doc, i, st.tick, rank), cancel))
    ensures Unseen(cancel, r.1.tick) ==>
      && r.0 == PureNode(doc, i, codec, rank)
      && r.1.tick == st.tick + NodeReads(doc, i, rank)
      && CachedPure(doc, codec, rank, r.1.cache, Subtree(doc.nodes.value, rank, i))
    decreases rank[i], 1
  {
    var nodes := doc.nodes.value;
    var node := nodes[i];
    assert ChildrenBelow(nodes, rank, Kids(node), rank[i]);
    var logged := BuildState(st.cache, tick + 1, st.writes + [Write(i, tick)]);
    var (children, st') := BuildChildren(doc, Kids(node), cancel, codec, logged, rank, rank[i]);
    var full := Shell(i, node, primitives).(children := children);
    PrunedStep(doc, i, primitives, children, codec, rank);
    RegisterKeepsChanges(nodes, rank, i, st.cache, st'.cache, full);
    FollowsRegister(doc, codec, rank, st.cache, st'.cache,
                    BeforeFlag(ForestWrites(doc, Kids(node), tick + 1, rank, rank[i]), cancel), i, tick, full);
    var result := (full, st'.(cache := st'.cache[i := Some(full)]));
    NodeWritesLogged(doc, codec, rank, i, st.tick, tick, cancel, st, result.1);
    // The subtree is only known to be cached when no read saw the flag,
    // which is when the children's forest is.
    if Unseen(cancel, st'.tick) then RegisterCoversSubtree(doc, codec, rank, i, st'.cache); result else result
  }

  /** The children loop of `buildNode`: every child is built, in order, each
      from the state the previous one left. The log says which writes
      happen: exactly those of the reference schedule whose read comes
      before the flag, so once a read in some child's build sees the flag,
      no later child, and nothing below it, is cached. A list whose first
      build starts after the flag is all bare nodes and leaves the cache as
      it was. */
  function BuildChildren(doc: Document, children: seq<nat>, cancel: Cancel, codec: DracoExtension -> DracoResult,
                         st: BuildState, ghost rank: seq<nat>, ghost bound: nat): (r: (seq<SceneNode>, BuildState))
    requires TreeOk(doc, rank) && doc.nodes.Some?
    requires ChildrenBelow(doc.nodes.value, rank, children, bound)
    requires |st.cache| == |doc.nodes.value|
    ensures |r.0| == |children|
    ensures forall k :: 0 <= k < |children| ==> r.0[k].source == Some(children[k])
    ensures |r.1.cache| == |st.cache|
    ensures forall j :: 0 <= j < |st.cache| && r.1.cache[j] != st.cache[j] ==>
      r.1.cache[j].Some? && j in Forest(doc.nodes.value, rank, children, bound)
    ensures st.tick + 2 * |children| <= r.1.tick <= st.tick + ForestReads(doc, children, rank, bound)
    ensures PrunedForest(doc, children, r.0, codec, rank, bound)
    ensures r.1.writes == st.writes + BeforeFlag(ForestWrites(doc, children, st.tick, rank, bound), cancel)
    ensures Follows(doc, codec, rank, st.cache, r.1.cache,
                    BeforeFlag(ForestWrites(doc, children, st.tick, rank, bound), cancel))
    ensures Canceled(cancel, st.tick) ==>
      && r.1 == st.(tick := st.tick + 2 * |children|)
      && forall k :: 0 <= k < |children| ==> r.0[k] == Shell(children[k], doc.nodes.value[children[k]], [])
    ensures Unseen(cancel, r.1.tick) ==>
      && r.0 == PureChildren(doc, children, codec, rank, bound)
      && r.1.tick == st.tick + ForestReads(doc, children, rank, bound)
      && CachedPure(doc, codec, rank, r.1.cache, Forest(doc.nodes.value, rank, children, bound))
    decreases bound, 0, |children|
  {
    if |children| == 0 then ([], st)
    else
      var nodes := doc.nodes.value;
      assert ChildrenBelow(nodes, rank, children[1..], bound);
      var (first, st1) := BuildNode(doc, children[0], cancel, codec, st, rank);
      var (rest, st2) := BuildChildren(doc, children[1..], cancel, codec, st1, rank, bound);
      ChainChanges(nodes, rank, children, bound, st.cache, st1.cache, st2.cache);
      SourcesStep(children, first, rest);
      PrunedForestStep(doc, children, first, rest, codec, rank, bound);
      ChildrenStep(doc, children, cancel, codec, rank, bound, st, first, st1, rest, st2);
      WritesStep(doc, children, cancel, codec, rank, bound, st, st1, st2);
      ([first] + rest, st2)
  }

  /** The first of two sibling leaves, built while the flag is first seen
      by the third read: its two reads are clear, it is the reference leaf
      and it is the only entry written. */
  lemma FirstSibling(codec: DracoExtension -> DracoResult)
    ensures var leaf := Node(None, None, None, None, None);
      var doc := Document(None, None, Some([leaf, leaf]), None, None, None, None, None, None, None, None);
      TreeOk(doc, [0, 0]) &&
      var a := BuildNode(doc, 0, Some(2), codec, BuildState([None, None], 0, []), [0, 0]);
      && a.1.tick == 2
      && a.1.cache == [Some(a.0), None]
      && a.1.writes == [Write(0, 1)]
  {
    var leaf := Node(None, None, None, None, None);
    var doc := Document(None, None, Some([leaf, leaf]), None, None, None, None, None, None, None, None);
    var rank := [0, 0];
    var a := BuildNode(doc, 0, Some(2), codec, BuildState([None, None], 0, []), rank);
    assert NodeReads(doc, 0, rank) == 2;
    assert Subtree([leaf, leaf], rank, 0) == {0};
    assert NodeWrites(doc, 0, 0, rank) == [Write(0, 1)];
    assert BeforeFlag([Write(0, 1)], Some(2)) == [Write(0, 1)] by {
      BeforeFlagKeep([Write(0, 1)], Write(0, 1), [], Some(2));
    }
  }

  /** Two sibling leaves, the flag first seen by the third read: the first
      leaf's two reads are clear and it is cached; the second leaf's build
      starts at a read that sees the flag, so it leaves no trace in the cache
      or the log, although the list goes on to build it (bare) and returns
      both. */
  lemma FlagBetweenSiblings(codec: DracoExtension -> DracoResult)
    ensures var leaf := Node(None, None, None, None, None);
      var doc := Document(None, None, Some([leaf, leaf]), None, None, None, None, None, None, None, None);
      TreeOk(doc, [0, 0]) && ChildrenBelow([leaf, leaf], [0, 0], [0, 1], 1) &&
      var r := BuildChildren(doc, [0, 1], Some(2), codec, BuildState([None, None], 0, []), [0, 0], 1);
      && r.1.cache[0] == Some(r.0[0])
      && r.1.cache[1] == None
      && r.0[1] == Shell(1, leaf, [])
      && r.1.tick == 4
      && r.1.writes == [Write(0, 1)]
  {
    var leaf := Node(None, None, None, None, None);
    var doc := Document(None, None, Some([leaf, leaf]), None, None, None, None, None, None, None, None);
    var rank := [0, 0];
    assert ChildrenBelow([leaf, leaf], rank, [0, 1], 1);
    assert [0, 1][1..] == [1];
    FirstSibling(codec);
  }

}

=== FILE: preload.dfy ===
/** Buffer collection of `_preloadBuffersData`: the set of buffers one
    top-level node's mesh needs before it can be built. The load request
    itself goes to the resource loader and is outside the model. */
module Preload {
  import opened Wrappers
  import opened Gltf

  /** A buffer view the preload force-unwraps: the view and buffer arrays are
      present and the view and its buffer are in range. */
  predicate ViewOk(doc: Document, view: nat) {
    && doc.bufferViews.Some?
    && view < |doc.bufferViews.value|
    && doc.buffers.Some?
    && doc.bufferViews.value[view].buffer < |doc.buffers.value|
  }

  function ViewBuffer(doc: Document, view: nat): nat
    requires ViewOk(doc, view)
  {
    doc.bufferViews.value[view].buffer
  }

  /** An accessor index the preload looks up (`self.accessors?[index]`). */
  predicate PreloadAccessorIndexOk(doc: Document, index: nat) {
    doc.accessors.Some? ==>
      && index < |doc.accessors.value|
      && (doc.accessors.value[index].bufferView.Some? ==> ViewOk(doc, doc.accessors.value[index].bufferView.value))
  }

  /** The buffer behind an accessor, when the accessor array is present and
      the accessor has a buffer view. */
  function AccessorBuffer(doc: Document, index: nat): (r: Option<nat>)
    requires PreloadAccessorIndexOk(doc, index)
    ensures r.Some? <==> doc.accessors.Some? && doc.accessors.value[index].bufferView.Some?
  {
    match doc.accessors
    case None => None
    case Some(accessors) =>
      match accessors[index].bufferView
      case None => None
      case Some(view) => Some(ViewBuffer(doc, view))
  }

  predicate PreloadPrimitiveOk(doc: Document, p: Primitive) {
    match p.draco
    case Some(d) => ViewOk(doc, d.bufferView)
    case None =>
      && (forall k :: 0 <= k < |p.attributes| ==> PreloadAccessorIndexOk(doc, p.attributes[k].1))
      && (p.indices.Some? ==> PreloadAccessorIndexOk(doc, p.indices.value))
  }

  /** Reference definition of the buffers a primitive needs: a Draco
      primitive needs exactly the buffer of its compressed view and none of
      its attribute or index buffers; any other primitive needs the buffer of
      every attribute or index accessor that has a buffer view. */
  ghost predicate Uses(doc: Document, p: Primitive, b: nat)
    requires PreloadPrimitiveOk(doc, p)
  {
    match p.draco
    case Some(d) => b == ViewBuffer(doc, d.bufferView)
    case None =>
      || (exists k :: 0 <= k < |p.attributes| && AccessorBuffer(doc, p.attributes[k].1) == Some(b))
      || (p.indices.Some? && AccessorBuffer(doc, p.indices.value) == Some(b))
  }

  /** What the preload needs of a node: it exists when the node array does,
      and its mesh, when present, is in range with well-formed primitives. */
  predicate NodeOk(doc: Document, nodeIndex: nat) {
    doc.nodes.Some? ==>
      && nodeIndex < |doc.nodes.value|
      && var node := doc.nodes.value[nodeIndex];
      (node.mesh.Some? && doc.meshes.Some? ==>
        && node.mesh.value < |doc.meshes.value|
        && forall p :: p in doc.meshes.value[node.mesh.value].primitives ==> PreloadPrimitiveOk(doc, p))
  }

  /** The primitives of the node's mesh; none when the node, its mesh or the
      mesh array is absent. */
  function NodePrimitives(doc: Document, nodeIndex: nat): (ps: seq<Primitive>)
    requires NodeOk(doc, nodeIndex)
    ensures forall p :: p in ps ==> PreloadPrimitiveOk(doc, p)
  {
    if doc.nodes.None? then []
    else
      var node := doc.nodes.value[nodeIndex];
      if node.mesh.None? || doc.meshes.None? then []
      else doc.meshes.value[node.mesh.value].primitives
  }

  ghost predicate Needs(doc: Document, nodeIndex: nat, b: nat)
    requires NodeOk(doc, nodeIndex)
  {
    var ps := NodePrimitives(doc, nodeIndex);
    exists k :: 0 <= k < |ps| && Uses(doc, ps[k], b)
  }

  /** The insertions one primitive makes into the set being collected. */
  method AddPrimitiveBuffers(doc: Document, p: Primitive, acc: set<nat>) returns (r: set<nat>)
    requires PreloadPrimitiveOk(doc, p)
    ensures forall b :: b in r <==> b in acc || Uses(doc, p, b)
  {
    r := acc;
    match p.draco {
      case Some(d) =>
        r := r + {ViewBuffer(doc, d.bufferView)};
      case None =>
        var j := 0;
        while j < |p.attributes|
          invariant 0 <= j <= |p.attributes|
          invariant forall b :: b in r <==>
            b in acc || exists k :: 0 <= k < j && AccessorBuffer(doc, p.attributes[k].1) == Some(b)
        {
          var buffer := AccessorBuffer(doc, p.attributes[j].1);
          if buffer.Some? {
            r := r + {buffer.value};
          }
          j := j + 1;
        }
        if p.indices.Some? {
          var buffer := AccessorBuffer(doc, p.indices.value);
          if buffer.Some? {
            r := r + {buffer.value};
          }
        }
    }
  }

  /** `_preloadBuffersData` up to the load request: the deduplicated set of
      buffers the node's primitives need. */
  method PreloadBuffers(doc: Document, nodeIndex: nat) returns (buffers: set<nat>)
    requires NodeOk(doc, nodeIndex)
    ensures forall b :: b in buffers <==> Needs(doc, nodeIndex, b)
  {
    buffers := {};
    var primitives := NodePrimitives(doc, nodeIndex);
    var i := 0;
    while i < |primitives|
      invariant 0 <= i <= |primitives|
      invariant forall b :: b in buffers <==> exists k :: 0 <= k < i && Uses(doc, primitives[k], b)
    {
      buffers := AddPrimitiveBuffers(doc, primitives[i], buffers);
      i := i + 1;
    }
  }
}

=== FILE: semantics.dfy ===
/** Attribute names to SceneKit geometry-source semantics (`sourceSemantic`). */
module Semantics {
  import Decimal

  datatype Semantic = Vertex | Normal | Tangent | Color | Texcoord | BoneIndices | BoneWeights

  /** The glTF attribute name `<base>_<n>` for an indexed attribute set. */
  function Indexed(base: string, n: nat): string {
    base + "_" + Decimal.Show(n)
  }

  /** The names the converter recognises, each with its semantic. */
  function Recognised(): map<string, Semantic> {
    map[
      "POSITION" := Vertex, "NORMAL" := Normal, "TANGENT" := Tangent,
      "COLOR" := Color, "COLOR_0" := Color, "COLOR_1" := Color, "COLOR_2" := Color,
      "TEXCOORD_0" := Texcoord, "TEXCOORD_1" := Texcoord, "TEXCOORD_2" := Texcoord,
      "TEXCOORD_3" := Texcoord, "TEXCOORD_4" := Texcoord,
      "JOINTS_0" := BoneIndices, "WEIGHTS_0" := BoneWeights]
  }

  /** `sourceSemantic`: total; names outside the recognised table, POSITION
      among the recognised ones, give the vertex semantic. */
  function SourceSemantic(name: string): (s: Semantic)
    ensures name in Recognised() ==> s == Recognised()[name]
    ensures name !in Recognised() ==> s == Vertex
    ensures s != Vertex ==> name in Recognised() && name != "POSITION"
  {
    match name
    case "POSITION" => Vertex
    case "NORMAL" => Normal
    case "TANGENT" => Tangent
    case "COLOR" | "COLOR_0" | "COLOR_1" | "COLOR_2" => Color
    case "TEXCOORD_0" | "TEXCOORD_1" | "TEXCOORD_2" | "TEXCOORD_3" | "TEXCOORD_4" => Texcoord
    case "JOINTS_0" => BoneIndices
    case "WEIGHTS_0" => BoneWeights
    case _ => Vertex
  }

  /** The one-digit names `<base>_0` to `<base>_9`, spelled out. */
  lemma IndexedShortName(base: string, n: nat)
    requires n < 10
    ensures Indexed(base, n) == base + "_" + ["0123456789"[n]]
  {
  }

  /** A name whose index has two or more digits is longer than every
      recognised name that shares its base. */
  lemma IndexedLongName(base: string, n: nat)
    requires n >= 10
    ensures |Indexed(base, n)| >= |base| + 3
    ensures Indexed(base, n)[..|base| + 1] == base + "_"
  {
    var name := Indexed(base, n);
    assert name == (base + "_") + Decimal.Show(n);
  }

  /** No recognised name carries an index of two or more digits. */
  lemma LongIndexNotRecognised(base: string, n: nat)
    requires base in {"TEXCOORD", "COLOR", "JOINTS", "WEIGHTS"}
    requires n >= 10
    ensures Indexed(base, n) !in Recognised()
  {
    var name := Indexed(base, n);
    IndexedLongName(base, n);
    assert name[0] == (base + "_")[0] == base[0];
    forall k | k in Recognised()
      ensures k != name
    {
      assert |k| < |base| + 3 || k[0] != base[0];
    }
  }

  /** Texture-coordinate sets 0 to 4 are texture coordinates; higher sets
      fall back to vertex. */
  lemma TexcoordSemantics(n: nat)
    ensures SourceSemantic(Indexed("TEXCOORD", n)) == if n <= 4 then Texcoord else Vertex
  {
    if n < 10 {
      IndexedShortName("TEXCOORD", n);
      var name := Indexed("TEXCOORD", n);
      var d := "0123456789"[n];
      assert name[9] == d;
      if n == 0 { assert name == "TEXCOORD_0"; }
      else if n == 1 { assert name == "TEXCOORD_1"; }
      else if n == 2 { assert name == "TEXCOORD_2"; }
      else if n == 3 { assert name == "TEXCOORD_3"; }
      else if n == 4 { assert name == "TEXCOORD_4"; }
      else {
        assert '5' <= d <= '9';
        forall k | k in Recognised()
          ensures k != name
        {
          assert |k| != 10 || k[9] < '5';
        }
      }
    } else {
      LongIndexNotRecognised("TEXCOORD", n);
    }
  }

  /** Colour sets 0 to 2 are colours; higher sets fall back to vertex. */
  lemma ColorSemantics(n: nat)
    ensures SourceSemantic(Indexed("COLOR", n)) == if n <= 2 then Color else Vertex
  {
    if n < 10 {
      IndexedShortName("COLOR", n);
      var name := Indexed("COLOR", n);
      var d := "0123456789"[n];
      assert name[0] == 'C' && name[6] == d;
      if n == 0 { assert name == "COLOR_0"; }
      else if n == 1 { assert name == "COLOR_1"; }
      else if n == 2 { assert name == "COLOR_2"; }
      else {
        assert '3' <= d <= '9';
        forall k | k in Recognised()
          ensures k != name
        {
          assert |k| != 7 || k[0] != 'C' || k[6] < '3';
        }
      }
    } else {
      LongIndexNotRecognised("COLOR", n);
    }
  }

  /** Only the first joint set gives bone indices. */
  lemma JointsSemantics(n: nat)
    ensures SourceSemantic(Indexed("JOINTS", n)) == if n == 0 then BoneIndices else Vertex
  {
    if n < 10 {
      IndexedShortName("JOINTS", n);
      var name := Indexed("JOINTS", n);
      var d := "0123456789"[n];
      assert name[0] == 'J' && name[7] == d;
      if n == 0 { assert name == "JOINTS_0"; }
      else {
        assert '1' <= d <= '9';
        forall k | k in Recognised()
          ensures k != name
        {
          assert |k| != 8 || k[0] != 'J' || k[7] < '1';
        }
      }
    } else {
      LongIndexNotRecognised("JOINTS", n);
    }
  }

  /** Only the first weight set gives bone weights. */
  lemma WeightsSemantics(n: nat)
    ensures SourceSemantic(Indexed("WEIGHTS", n)) == if n == 0 then BoneWeights else Vertex
  {
    if n < 10 {
      IndexedShortName("WEIGHTS", n);
      var name := Indexed("WEIGHTS", n);
      var d := "0123456789"[n];
      assert name[0] == 'W' && name[8] == d;
      if n == 0 { assert name == "WEIGHTS_0"; }
      else {
        assert '1' <= d <= '9';
        forall k | k in Recognised()
          ensures k != name
        {
          assert |k| != 9 || k[0] != 'W' || k[8] < '1';
        }
      }
    } else {
      LongIndexNotRecognised("WEIGHTS", n);
    }
  }
}

=== FILE: topology.dfy ===
/** Mapping of glTF primitive modes onto SceneKit primitive types
    (`GLTFMeshPrimitiveMode.scn()`) and the primitive count handed to the
    geometry element (the `switch` in `geometryElement`). */
module Topology {
  import opened Gltf

  /** The SceneKit primitive types the converter produces. */
  datatype ScnPrimitiveType = ScnPoint | ScnLine | ScnTriangleStrip | ScnTriangles

  /** Geometric dimension of what a glTF mode draws: points, curves or surfaces. */
  function ModeDimension(m: PrimitiveMode): nat {
    match m
    case Points => 0
    case Lines | LineLoop | LineStrip => 1
    case Triangles | TriangleStrip | TriangleFan => 2
  }

  function ScnDimension(t: ScnPrimitiveType): nat {
    match t
    case ScnPoint => 0
    case ScnLine => 1
    case ScnTriangleStrip | ScnTriangles => 2
  }

  /** `scn()`: every mode keeps its dimension; all three line modes become
      line lists, and the fan falls into the triangle-list default. */
  function Scn(m: PrimitiveMode): (t: ScnPrimitiveType)
    ensures ScnDimension(t) == ModeDimension(m)
    ensures t == ScnTriangleStrip <==> m == TriangleStrip
    ensures ModeDimension(m) == 2 && m != TriangleStrip ==> t == ScnTriangles
  {
    match m
    case Points => ScnPoint
    case Lines | LineLoop | LineStrip => ScnLine
    case TriangleStrip => ScnTriangleStrip
    case Triangles => ScnTriangles
    case _ => ScnTriangles
  }

  /** Number of indices SceneKit consumes to draw `n` primitives of type `t`. */
  function IndicesNeeded(t: ScnPrimitiveType, n: nat): nat {
    match t
    case ScnPoint => n
    case ScnLine => 2 * n
    case ScnTriangleStrip => n + 2
    case ScnTriangles => 3 * n
  }

  /** The primitive count `geometryElement` derives from an index count: the
      largest number of primitives whose indices fit in `count`. For a
      triangle strip of fewer than two indices no number fits and the result
      is negative, as the source's `count-2` is. */
  function PrimitiveCount(t: ScnPrimitiveType, count: nat): (r: int)
    ensures forall n: nat {:trigger IndicesNeeded(t, n)} :: IndicesNeeded(t, n) <= count <==> n <= r
    ensures t != ScnTriangleStrip ==> r >= 0
  {
    match t
    case ScnTriangles => count / 3
    case ScnTriangleStrip => count - 2
    case ScnLine => count / 2
    case ScnPoint => count
  }

  /** The count passed to the geometry element for a glTF mode. */
  function ElementCount(m: PrimitiveMode, count: nat): (r: int)
    ensures ModeDimension(m) == 1 ==> r == count / 2
    ensures m == TriangleStrip ==> r == count - 2
    ensures ModeDimension(m) == 2 && m != TriangleStrip ==> r == count / 3
    ensures m == Points ==> r == count
  {
    PrimitiveCount(Scn(m), count)
  }

  /** Three hundred indices of a triangle list make one hundred triangles. */
  lemma TriangleListExample()
    ensures ElementCount(PrimitiveMode.Triangles, 300) == 100
  {
  }
}

=== FILE: weightpaths.dfy ===
/** The morph-weight animation paths `buildNode` records on a node: one path
    `childNodes[i].morpher.weights[j]` per morph target `j` of each primitive
    child `i` that has a morpher, children in order and targets in order. */
module WeightPaths {
  import opened Wrappers
  import Decimal

  datatype WeightPath = WeightPath(child: nat, target: nat)

  const Prefix: string := "childNodes["
  const Middle: string := "].morpher.weights["

  /** The key path string of a weight path. */
  function Render(p: WeightPath): string {
    Prefix + Decimal.Show(p.child) + Middle + Decimal.Show(p.target) + "]"
  }

  /** Strict lexicographic order on (child, target). */
  predicate Before(p: WeightPath, q: WeightPath) {
    p.child < q.child || (p.child == q.child && p.target < q.target)
  }

  /** Whether `p` names an existing target of an existing child, given the
      target count of each child's morpher (`None`: no morpher). */
  predicate Names(morphs: seq<Option<nat>>, p: WeightPath) {
    p.child < |morphs| && morphs[p.child].Some? && p.target < morphs[p.child].value
  }

  function TargetCount(morphs: seq<Option<nat>>): nat {
    if |morphs| == 0 then 0
    else
      TargetCount(morphs[..|morphs| - 1])
      + (if morphs[|morphs| - 1].Some? then morphs[|morphs| - 1].value else 0)
  }

  /** The paths of one child. */
  function ChildPaths(i: nat, morph: Option<nat>): (r: seq<WeightPath>)
    ensures |r| == if morph.Some? then morph.value else 0
    ensures forall k :: 0 <= k < |r| ==> r[k] == WeightPath(i, k)
  {
    match morph
    case None => []
    case Some(n) => seq(n, j requires 0 <= j < n => WeightPath(i, j))
  }

  /** All paths: every target of every child appears exactly once, in
      lexicographic order. */
  function Enumerate(morphs: seq<Option<nat>>): (r: seq<WeightPath>)
    ensures |r| == TargetCount(morphs)
    ensures forall p :: p in r <==> Names(morphs, p)
    ensures forall a, b :: 0 <= a < b < |r| ==> Before(r[a], r[b])
    decreases |morphs|
  {
    if |morphs| == 0 then []
    else
      var last := |morphs| - 1;
      var init := morphs[..last];
      var front := Enumerate(init);
      var row := ChildPaths(last, morphs[last]);
      assert forall p :: Names(init, p) <==> Names(morphs, p) && p.child < last;
      front + row
  }

  /** Where a shorter run of digits ends, a longer one still has a digit. */
  lemma DigitsThenMark(a: string, t: string, a': string, t': string)
    requires Decimal.AllDigits(a') && |t| > 0
    requires |a| < |a'| && |a'| <= |a' + t'| == |a + t|
    ensures (a + t)[|a|] == t[0]
    ensures Decimal.IsDigit((a' + t')[|a|])
  {
  }

  /** A number's digits followed by a non-digit determine both parts. */
  lemma SplitAtDigits(a: string, t: string, a': string, t': string)
    requires Decimal.AllDigits(a) && Decimal.AllDigits(a')
    requires |t| > 0 && |t'| > 0 && !Decimal.IsDigit(t[0]) && !Decimal.IsDigit(t'[0])
    requires a + t == a' + t'
    ensures a == a' && t == t'
  {
    var s := a + t;
    if |a| < |a'| {
      DigitsThenMark(a, t, a', t');
      assert false;
    } else if |a'| < |a| {
      DigitsThenMark(a', t', a, t);
      assert false;
    }
    assert a == s[..|a|] == a';
    assert t == s[|a|..] == t';
  }

  lemma CancelPrefix(x: string, y: string, z: string)
    requires x + y == x + z
    ensures y == z
  {
    assert y == (x + y)[|x|..];
  }

  lemma CancelFrame(m: string, y: string, z: string, e: string)
    requires m + y + e == m + z + e
    ensures y == z
  {
    assert |y| == |z|;
    assert y == (m + y + e)[|m|..|m| + |y|];
  }

  /** A rendered path splits into the prefix, the child digits, and a tail
      that starts with a closing bracket. */
  lemma RenderShape(p: WeightPath)
    ensures Render(p) == Prefix + (Decimal.Show(p.child) + (Middle + Decimal.Show(p.target) + "]"))
    ensures (Middle + Decimal.Show(p.target) + "]")[0] == ']'
  {
  }

  /** Distinct paths render to distinct strings. */
  lemma RenderInjective(p: WeightPath, q: WeightPath)
    requires Render(p) == Render(q)
    ensures p == q
  {
    var a, a' := Decimal.Show(p.child), Decimal.Show(q.child);
    var t, t' := Middle + Decimal.Show(p.target) + "]", Middle + Decimal.Show(q.target) + "]";
    RenderShape(p);
    RenderShape(q);
    CancelPrefix(Prefix, a + t, a' + t');
    SplitAtDigits(a, t, a', t');
    CancelFrame(Middle, Decimal.Show(p.target), Decimal.Show(q.target), "]");
    Decimal.ShowInjective(p.child, q.child);
    Decimal.ShowInjective(p.target, q.target);
  }

  /** The inner loop of `buildNode` for child `i` with `n` morph targets. */
  method AppendChildPaths(paths: seq<string>, i: nat, n: nat) returns (r: seq<string>)
    ensures |r| == |paths| + n
    ensures r[..|paths|] == paths
    ensures forall k :: 0 <= k < n ==> r[|paths| + k] == Render(WeightPath(i, k))
  {
    r := paths;
    var j := 0;
    while j < n
      invariant 0 <= j <= n
      invariant |r| == |paths| + j
      invariant r[..|paths|] == paths
      invariant forall k :: 0 <= k < j ==> r[|paths| + k] == Render(WeightPath(i, k))
    {
      r := r + [Render(WeightPath(i, j))];
      j := j + 1;
    }
  }

  /** The rendered enumeration has no repeated string. */
  lemma RenderedDistinct(morphs: seq<Option<nat>>, a: nat, b: nat)
    requires a < b < |Enumerate(morphs)|
    ensures Render(Enumerate(morphs)[a]) != Render(Enumerate(morphs)[b])
  {
    var e := Enumerate(morphs);
    if Render(e[a]) == Render(e[b]) {
      RenderInjective(e[a], e[b]);
      assert false;
    }
  }

  /** The path strings: those of `Enumerate`, in its order, pairwise distinct. */
  function PathStrings(morphs: seq<Option<nat>>): (r: seq<string>)
    ensures |r| == TargetCount(morphs)
    ensures forall k :: 0 <= k < |r| ==> r[k] == Render(Enumerate(morphs)[k])
    ensures forall a, b :: 0 <= a < b < |r| ==> r[a] != r[b]
  {
    var e := Enumerate(morphs);
    var r := seq(|e|, k requires 0 <= k < |e| => Render(e[k]));
    assert forall a, b :: 0 <= a < b < |r| ==> r[a] != r[b] by {
      forall a, b | 0 <= a < b < |r|
        ensures r[a] != r[b]
      {
        RenderedDistinct(morphs, a, b);
      }
    }
    r
  }

  /** The two nested loops of `buildNode` compute exactly `PathStrings`. */
  method CollectWeightPaths(morphs: seq<Option<nat>>) returns (paths: seq<string>)
    ensures paths == PathStrings(morphs)
  {
    paths := [];
    var i := 0;
    while i < |morphs|
      invariant 0 <= i <= |morphs|
      invariant paths == PathStrings(morphs[..i])
    {
      assert morphs[..i + 1][..i] == morphs[..i];
      if morphs[i].Some? {
        paths := AppendChildPaths(paths, i, morphs[i].value);
      }
      i := i + 1;
    }
    assert morphs[..|morphs|] == morphs;
  }
}

=== FILE: wrappers.dfy ===
/** Wrappers used throughout the model: `Option` stands for Swift optionals,
    `Result` for functions that `throw`. */
module Wrappers {

  datatype Option<+T> = None | Some(value: T) {

    /** The element sequence of the optional: empty or a singleton. */
    function ToSeq(): (s: seq<T>)
      ensures |s| <= 1
      ensures Some? <==> |s| == 1
      ensures Some? ==> s[0] == value
    {
      match this
      case None => []
      case Some(v) => [v]
    }
  }

  datatype Result<+R, +E> = Success(value: R) | Failure(error: E)
}
